=== FILE: README.md ===
# Melody harmonizer: voicing engine and melody analysis, in Dafny

This project models the two integer-valued cores of a Python melody
harmonizer built on music21 and proves properties of them.

- **Voicing engine** (`melody_harmonizer/core/voicing.py`). It contains:
  - the per-style voicing configurations and extension tables;
  - chord classification (`determine_chord_type`);
  - extension adding (`add_extensions`);
  - register placement (`generate_voicing`, `find_best_octave`);
  - the two voice-leading passes (`minimize_voice_movement`, `fix_parallel_motion`);
  - the per-chord pipeline `apply_voicing`.
- **Melody analysis** (`melody_harmonizer/core/analysis.py`). It contains:
  - phrase segmentation (`_detect_phrases` and the tests `_is_breathing_point`, `_is_cadential_pattern`, `_is_similar_rhythm`);
  - cadence labelling (`_detect_cadences`);
  - chord choice in `generate_harmony`, with `_find_suitable_chord` and `_modify_chord_for_melody`.

How the model represents the source:

- **Pitches.** A pitch is its MIDI number (`int`, 60 = middle C). A chord is the sequence of its pitches' MIDI numbers.
- **Names and octaves.** A music21 pitch *name* is modelled as the pitch class `p % 12`. The octave is `p / 12 - 1`.
- **Melody events.** An event is `Note(pitch, dur)` or `Rest(dur)`, where `dur` is a duration in quarter lengths (`real`).
- **Python exceptions.** Each exception on a modelled path is a constructor of `Results.Error`, returned in a `Result`:
  - a `KeyError` for a style with no extension table;
  - an `IndexError` for an empty chord or an index past the end;
  - an `AttributeError` for a rest's pitch;
  - the melody loop that never exits.
- **music21 services** become parameters:
  - `TriadFacts`: the answers of `isMajorTriad`, `isMinorTriad` and `isDominantSeventh`;
  - `rootOf`: the result of `root()`;
  - `realize`: what `RomanNumeral` turns a numeral into;
  - `KeyDegrees`: the key's tonic, dominant and relative-minor pitch classes.
- **Undefined predicate.** `is_parallel_motion` is never defined in the source. It becomes the parameter `parallel`.

Modules:
- `Results`: errors, `Option`, `Result`.
- `Pitch`: pitch class, octave, octave assignment.
- `Sorting`: the ascending sort of the remaining chord tones.
- `Chords`: chord types, classification, chord structures.
- `Styles`: config and extension tables.
- `Extensions`: `add_extensions`.
- `Placement`: `generate_voicing` and `find_best_octave`.
- `VoiceLeading`: `minimize_voice_movement` and `fix_parallel_motion`.
- `Sequencer`: `apply_voicing`.
- `Melody`: events, breathing points, rhythm similarity, cadential patterns.
- `Phrases`: `_detect_phrases`.
- `Cadences`: `_detect_cadences`.
- `Harmony`: `generate_harmony` and its chord choice.

## Model

| member | source | states |
|---|---|---|
| Pitch.WithOctave | melody_harmonizer/core/voicing.py:125 | Assigning an octave keeps the pitch's name, sets its octave, and moves it by exactly twelve semitones per octave of change |
| Chords.DetermineChordType | melody_harmonizer/core/voicing.py:76-86 | The type is minor exactly when the chord is not a major triad but is a minor triad, dominant exactly when it is only a dominant seventh, and major otherwise, including when no test holds |
| Chords.StructuresAreRootedAndWithinAnOctave | melody_harmonizer/core/analysis.py:35-39 | Every chord structure starts at the root, rises strictly, and stays below the octave |
| Styles.Config | melody_harmonizer/core/voicing.py:17-38 | Every style keeps the default registers (48-72, bass 36-48) and parallel threshold, has a minimum spacing strictly between 0 and its maximum, and forbids voice crossing exactly for pop and classical |
| Styles.OnlyClassicalSpansAnOctave | melody_harmonizer/core/voicing.py:30-37 | Classical is the only style whose spacing window is at least eleven semitones wide |
| Styles.Extensions | melody_harmonizer/core/voicing.py:41-46 | Rock, country, latin and hiphop have no extension table; the other four styles do |
| Extensions.ExtensionOffset | melody_harmonizer/core/voicing.py:93-105 | Only codes 7, 9 and 13 yield a pitch: 10, 14 or 21 semitones up for a dominant chord and 11, 13 or 21 otherwise |
| Extensions.Added | melody_harmonizer/core/voicing.py:93-105 | The loop adds at most one pitch per code. Every added pitch is absent from the original chord and is a requested offset above its first pitch. Every requested offset is present afterwards |
| Extensions.AddExtensions | melody_harmonizer/core/voicing.py:88-107 | It fails exactly when the style has no table (KeyError) or the chord is empty (IndexError). Otherwise it keeps every original pitch in place, adds only absent pitches at requested offsets, and adds every requested offset |
| Extensions.IgnoredCodesLeaveChordUnchanged | melody_harmonizer/core/voicing.py:43-44 | Jazz major and minor chords and every classical chord come back unchanged, because codes 10 and 11 are ignored |
| Extensions.PopKeepsDominantSeventh | melody_harmonizer/core/voicing.py:42 | Pop's seventh is already in a dominant seventh chord, so the chord comes back unchanged |
| Extensions.BluesAddsNinthToDominantSeventh | melody_harmonizer/core/voicing.py:45 | Blues adds only the major ninth to a dominant seventh chord |
| Placement.RaiseToLow | melody_harmonizer/core/voicing.py:113-114 | Raising by octaves keeps the name, reaches the low bound, and stays below it plus an octave |
| Placement.LowerToHigh | melody_harmonizer/core/voicing.py:115-116 | Lowering by octaves keeps the name, reaches the high bound, and stays above it minus an octave |
| Placement.PlaceRoot | melody_harmonizer/core/voicing.py:112-116 | The placed root keeps its name and ends at or below the top of the range. It ends inside the range whenever the range spans at least eleven semitones. A root already inside is untouched. A root raised from below lands less than an octave above the low bound; one lowered from above lands less than an octave below the high bound |
| Placement.RaiseInterval | melody_harmonizer/core/voicing.py:139-141 | The upward search moves the interval twelve semitones per octave and stops at the first interval not below the minimum spacing |
| Placement.LowerInterval | melody_harmonizer/core/voicing.py:143-145 | The downward search moves the interval twelve semitones per octave and stops at the first interval not above the maximum spacing |
| Placement.FindBestOctave | melody_harmonizer/core/voicing.py:134-147 | Starting from the previous voice's octave and the interval measured from the note's own octave: the interval moves twelve semitones per octave step and ends at most the maximum spacing, and at least the minimum when the window spans eleven semitones. An interval already in the window returns the previous voice's octave unchanged |
| Placement.PlaceNote | melody_harmonizer/core/voicing.py:124-125 | The placed tone keeps its name. Its distance above the previous voice is the tracked interval, off by an octave per octave the note and the previous voice started apart |
| Placement.SameOctavePlacementKeepsSpacing | melody_harmonizer/core/voicing.py:134-147 | When the note and the previous voice share an octave, the placed tone sits at most the maximum spacing above the previous voice, and at least the minimum when the window spans eleven semitones. A tone already in the window stays put |
| Placement.PlacementCanLandBelowPrevious | melody_harmonizer/core/voicing.py:136-137 | Mixing the two octaves misplaces tones: E5 after C4 in the pop style is placed at E3, below C4 |
| Placement.PlaceTones | melody_harmonizer/core/voicing.py:123-126 | Each remaining tone is placed against the voice placed just before it, and the voices already placed are kept |
| Placement.OtherTones | melody_harmonizer/core/voicing.py:120 | The pitches whose name differs from the root's, each with its multiplicity in the chord |
| Placement.RemainingTones | melody_harmonizer/core/voicing.py:120 | The tones after the root are exactly the chord's pitches with a name other than the root's, with multiplicity, in ascending MIDI order |
| Placement.Arrange | melody_harmonizer/core/voicing.py:112-126 | Voice 0 is the placed root. There is one further voice per remaining tone, in ascending order of the tone's original pitch. Each keeps its tone's name, differs in name from the root, and is placed against the voice before it |
| Placement.GenerateVoicing | melody_harmonizer/core/voicing.py:109-132 | Without a melody note, or with the top voice at or above it, the voicing is the arrangement unchanged and its top voice is not below the melody. With the top voice below the melody, the melody loop diverges |
| Placement.MelodyLoopNeverExits | melody_harmonizer/core/voicing.py:129-131 | After any number of passes of the melody loop from a top voice below the melody, the other voices are unchanged and the top voice is lower by an octave per pass, still below the melody, so the loop condition never fails |
| Sorting.Insert | melody_harmonizer/core/voicing.py:120 | Inserting adds exactly one occurrence of the element and starts with it or with the old first element |
| Sorting.InsertAscending | melody_harmonizer/core/voicing.py:120 | Inserting into an ascending sequence keeps it ascending |
| Sorting.Sort | melody_harmonizer/core/voicing.py:120 | The sort returns an ascending permutation of its input |
| Sorting.AscendingPermutationUnique | melody_harmonizer/core/voicing.py:120 | Two ascending permutations of the same pitches are equal, so any correct sort by MIDI number gives the same tone order |
| VoiceLeading.NearestOctave | melody_harmonizer/core/voicing.py:176-180 | The octave loop keeps the voice's name, ends within six semitones of the target, and leaves a voice already that close untouched. A voice lowered from above never ends exactly six below the target, and one raised from below never ends exactly six above it |
| VoiceLeading.NearestOctaveIsOnlyNameInWindow | melody_harmonizer/core/voicing.py:176-180 | The loop's result is the only pitch of the voice's name in its window: (target - 6, target + 6] for a voice coming down, [target - 6, target + 6) for one coming up |
| VoiceLeading.Rejected | melody_harmonizer/core/voicing.py:182-189 | A voice that passes sits at least the minimum spacing above its lower neighbour and at least that far below its upper one. A chord of one voice never rejects |
| VoiceLeading.PassingVoiceNotRejected | melody_harmonizer/core/voicing.py:182-191 | Two runs of passing rewrites from the same voice agree where both rewrote, so the voice after the shorter run passes the spacing test |
| VoiceLeading.RunStopsAtRejection | melody_harmonizer/core/voicing.py:172-191 | The loop is deterministic: where it stops at a rejected voice, no run of passing rewrites from the same start gets past that voice |
| VoiceLeading.MinimizeFrom | melody_harmonizer/core/voicing.py:172-191 | From voice i on, the loop rewrites a run of voices toward the previous chord and stops at the first voice the spacing test rejects. Earlier and later voices are left alone. It fails with an IndexError exactly when the previous chord is shorter and every one of its voices from i on is rewritten and passes, so the loop reaches the first missing voice |
| VoiceLeading.MinimizeVoiceMovement | melody_harmonizer/core/voicing.py:169-193 | Some prefix of the voices is rewritten and the rest is untouched. Every changed voice keeps its name and lies within six semitones of the previous chord's voice at the same index. Each rewritten voice passed the spacing test against both neighbours. The voice after the run was rejected. It fails, with an IndexError, exactly when the previous chord is shorter and every one of its voices is rewritten and passes. A rejection before the previous chord runs out ends the loop without error |
| VoiceLeading.LeadingToItselfMovesNothing | melody_harmonizer/core/voicing.py:169-193 | Leading a chord to itself returns it unchanged |
| VoiceLeading.TrySteps | melody_harmonizer/core/voicing.py:160-163 | A step is taken exactly when some step is tried and the test on the original pitch says not parallel. The step taken is always the first one |
| VoiceLeading.FixFrom | melody_harmonizer/core/voicing.py:157-167 | From voice i on, the chord is returned unchanged only if every voice is judged parallel. Otherwise exactly the first voice judged not parallel is lowered two semitones. It fails with an IndexError exactly when it reaches a voice the previous chord lacks, that is, when every voice from i up to that one is judged parallel |
| VoiceLeading.FixParallelMotion | melody_harmonizer/core/voicing.py:153-167 | Voice 0 never moves and the length is kept. The chord comes back unchanged exactly when every later voice is judged parallel. Otherwise exactly one voice, the first judged not parallel, is lowered two semitones. It fails with an IndexError exactly when the previous chord is shorter and every voice from 1 up to its length is judged parallel |
| Sequencer.VoiceChord | melody_harmonizer/core/voicing.py:56-61 | A melody too short for chord i is an IndexError. An empty chord fails. A voiced chord came from a non-empty chord whose style has an extension table, and its top voice is not below the melody note |
| Sequencer.MelodyNoteAt | melody_harmonizer/core/voicing.py:56 | Without a melody there is no melody note. With one, chord i takes melody note i, and an index past its end is an IndexError |
| Sequencer.VoiceFrom | melody_harmonizer/core/voicing.py:55-70 | The loop succeeds exactly when every per-chord step does, keeps the entries already emitted, and otherwise fails with the error of the first failing step. While `prev_chord` is unset it emits each step's voicing in order; were it set, every entry would be the stub's `None` |
| Sequencer.ApplyVoicing | melody_harmonizer/core/voicing.py:49-70 | One voicing per chord, never a `None`, each exactly what classification, extension and placement give for that chord's pitches, as passed in, and its melody note. It fails exactly when some chord's pipeline fails, with the error of the first chord that fails |
| Melody.IsBreathingPoint | melody_harmonizer/core/analysis.py:231-245 | A rest on either side, a note more than twice as long as the next, or a fall of more than seven semitones is a breathing point. Between two notes with no long-before-short duration, nothing else is |
| Melody.AllClose | melody_harmonizer/core/analysis.py:270 | True exactly when every pair of corresponding durations is closer than the threshold |
| Melody.IsSimilarRhythm | melody_harmonizer/core/analysis.py:265-270 | Rhythms of different lengths are never similar. Otherwise they are similar exactly when every pair of durations is closer than the threshold |
| Melody.SimilarRhythmIsSymmetric | melody_harmonizer/core/analysis.py:265-270 | Similarity does not depend on argument order |
| Melody.AnySimilar | melody_harmonizer/core/analysis.py:263 | True exactly when the durations are similar to some pattern |
| Melody.IsCadentialPattern | melody_harmonizer/core/analysis.py:247-263 | False for fewer than three events. Otherwise true exactly when the last three durations match one of the three cadential rhythms |
| Melody.CadentialPhraseEndsLong | melody_harmonizer/core/analysis.py:257-263 | With durations compared as exact reals, a cadential phrase ends on an event longer than 1.9 quarter lengths, after one strictly between 0.4 and 2.1 |
| Phrases.EndsPhrase | melody_harmonizer/core/analysis.py:151-154 | A cut needs a non-empty phrase. A phrase of more than eight events is always cut, and so is a phrase ending on or followed by a rest. A cut on a phrase of at most eight events with no cadential rhythm is a breathing point |
| Phrases.Segment | melody_harmonizer/core/analysis.py:147-160 | The phrases already closed are kept as a prefix. At least one more phrase is produced while events remain or a phrase is open, and at most one per remaining event plus one |
| Phrases.CloseGivesSegmentation | melody_harmonizer/core/analysis.py:159-160 | Closing the open phrase after the last event completes a valid segmentation |
| Phrases.CutKeepsInvariant | melody_harmonizer/core/analysis.py:148-157 | Closing a phrase when the cut test holds keeps the loop invariant |
| Phrases.GrowKeepsInvariant | melody_harmonizer/core/analysis.py:148-154 | Extending the open phrase when no cut is due keeps the loop invariant |
| Phrases.SegmentIsSegmentation | melody_harmonizer/core/analysis.py:147-162 | From any loop state satisfying the invariant, the loop returns a segmentation. The phrases concatenate to the input and are non-empty, a cut falls after every phrase but the last, and none falls inside a phrase |
| Phrases.SegmentationEmptyIff | melody_harmonizer/core/analysis.py:159-162 | A segmentation has no phrases exactly when there are no events |
| Phrases.DetectPhrases | melody_harmonizer/core/analysis.py:142-162 | The phrases concatenate back to the input and are non-empty. Each phrase but the last ends where the cut test fires, and no phrase contains a point where it fires. Empty input gives no phrases |
| Phrases.PhrasesHaveAtMostNineEvents | melody_harmonizer/core/analysis.py:151-154 | No phrase has more than nine events |
| Phrases.SegmentationTail | melody_harmonizer/core/analysis.py:142-162 | Dropping the first phrase leaves a segmentation of the remaining events |
| Phrases.FirstPhrasesAgree | melody_harmonizer/core/analysis.py:142-162 | Two segmentations of the same events have the same first phrase |
| Phrases.SegmentationIsUnique | melody_harmonizer/core/analysis.py:142-162 | The segmentation of a melody is unique, so the detector's phrases are determined by the cut test alone |
| Cadences.PitchName | melody_harmonizer/core/analysis.py:173 | A note's name is its pitch class. A rest has none, which is an AttributeError |
| Cadences.Classify | melody_harmonizer/core/analysis.py:169-184 | A step fails exactly when a pitch the code reads belongs to a rest. Otherwise: PAC exactly for dominant to tonic; HC exactly for arrival on a dominant that is not the tonic; DC exactly for dominant to relative-minor tonic when that is neither tonic nor dominant |
| Cadences.TonicWithoutDominantIsNoCadence | melody_harmonizer/core/analysis.py:173-175 | Arriving on the tonic from anything but the dominant gives no cadence |
| Cadences.DetectFrom | melody_harmonizer/core/analysis.py:168-186 | From step i on: it succeeds exactly when every step classifies. It then lists at most one cadence per step, in strictly increasing position. Every listed cadence is the classification of its step, and every step that classifies as a cadence is listed |
| Cadences.DetectCadences | melody_harmonizer/core/analysis.py:164-186 | The cadences are exactly the steps that classify as one, each attached to its arrival event. They are in increasing position, and there are fewer of them than events. A rest after the first event is an error; a melody without rests never fails |
| Cadences.CadenceKindsFollowArrival | melody_harmonizer/core/analysis.py:173-179 | A detected cadence arrives on the tonic exactly when it is PAC, a PAC comes from the dominant, and one arriving on a dominant other than the tonic is HC |
| Harmony.StyleProgressions | melody_harmonizer/core/analysis.py:22-33 | Each mode has three progressions of four numerals |
| Harmony.Progression | melody_harmonizer/core/analysis.py:76-80 | The progression used has four numerals, begins and ends on the same chord, and has V third |
| Harmony.NumeralAt | melody_harmonizer/core/analysis.py:89-95 | The numeral comes from the mode's progression. The first and fourth measure of every four take the opening chord, and the third takes V |
| Harmony.NumeralsCycleEveryFourMeasures | melody_harmonizer/core/analysis.py:89-95 | The numeral chosen for a note repeats four measures later |
| Harmony.FirstMeasureIsTonic | melody_harmonizer/core/analysis.py:83-95 | Every note of the first measure is harmonised with the progression's first numeral |
| Harmony.ModifyFrom | melody_harmonizer/core/analysis.py:125-133 | From tone j on, the chord changes exactly when it is a triad with a later tone within two semitones of the melody. The change is to append a minor seventh above the first pitch |
| Harmony.ModifyChordForMelody | melody_harmonizer/core/analysis.py:119-133 | A triad with a tone within two semitones of the melody gains a fourth pitch ten semitones above its first. Any other chord is returned unchanged |
| Harmony.FindSuitableChord | melody_harmonizer/core/analysis.py:103-117 | The chord is unchanged when it contains the melody pitch. It changes exactly when it does not contain it, is a triad, and has a tone within two semitones of it |
| Harmony.GenerateHarmony | melody_harmonizer/core/analysis.py:68-101 | One element per event, with a rest exactly for a rest. The note at index i gets the suitable chord for the numeral at `(i // numerator) % 4` of the mode's first progression |

## Left out

- **Crash-level typos.** Each is modelled as the evidently intended code:
  - `min_spaciing` (voicing.py:18): the `min_spacing=` keywords at :30-37 would raise TypeError.
  - `style_confights` (:51).
  - `melody_notes` (:56).
  - `curr_chord[i + 1]` (:187) and the `Pitch` arithmetic in `minimize_voice_movement` (:176-180, :184, :188), modelled as MIDI numbers.
  - `pitch.Pith` (:134).
  - In analysis.py:
    - `from dataclass import dataclass` (:4): no module `dataclass` exists, so the import fails before any analysis code runs; modelled as the standard `dataclasses`;
    - unpacking the analysis object into three names (:71);
    - the loop variable `note` shadowing the module in `isinstance(note, note.Note)` (:86-87);
    - the parameter `chord` shadowing the module in `chord.Chord(...)` (:131);
    - the missing import of `interval` (:126).
- **music21 services.** These are parameters or value-level stand-ins:
  - key analysis, `RomanNumeral`, `root()`, the triad tests, `Interval`;
  - enharmonic spelling: names are compared as pitch classes, so B♯ and C count as the same name.
- **Spelled octaves.** music21 numbers octaves by letter name, so B♯4 is MIDI 72 and C♭4 is MIDI 59, yet both have octave 4. The model always takes the octave of p to be p / 12 - 1. A B♯, B𝄪, C♭ or C𝄫 tone, and any tone placed after one, can therefore land 12 semitones away from where music21 puts it. For example, take G♯4 B♯4 D♯5 (MIDI 68, 72, 75) with root 68 in the pop style. The model arranges it as 68, 60, 51; with music21's spelled octaves the tones land at 68, 72, 63.
  - Pitch.WithOctave: sets the octave of the MIDI number, not of the spelling, so assigning octave 4 to B♯ gives 60 rather than music21's 72.
  - Placement.FindBestOctave: starts from the MIDI octave of the previous voice, which is one off from music21's `.octave` when that voice is spelled B♯/B𝄪 or C♭/C𝄫.
  - Placement.PlaceNote: inherits both gaps, so it can differ from the source by 12 semitones for such spellings.
- **In-place mutation.**
  - Sequencer.ApplyVoicing: the source changes the caller's chord objects in place. `ch.add` adds extensions (voicing.py:97, :101, :105). `root.octave` moves the chord's own root pitch (:114, :116). `note_to_add.octave` moves its other pitches (:125). A chord object listed twice is therefore voiced the second time from its changed state. For example, [60, 79] in pop is voiced [60, 55] and then [60, 79]. The model voices each entry from the pitches as given, so it gives [60, 55] both times.
- **Chord storage order.**
  - Extensions.AddExtensions: music21's `Chord.add` re-sorts a chord's pitches. The model appends instead. Placement sorts the remaining tones itself, so only the parameter `rootOf` could see the difference.
  - Harmony.FindSuitableChord: a music21 `Pitch` compares by name and octave. The model compares MIDI numbers.
- **Melody rests.** The melody given to `apply_voicing` is modelled as pitches only. A rest in it would raise AttributeError at voicing.py:130, which the model does not represent.
- **Durations as exact reals.** Python compares durations as floats, and music21 stores some as fractions. So a duration exactly 0.1 from a pattern value can come out close in the source, while the model calls it not close. For example, 0.4 against 0.5 gives 0.09999999999999998 < 0.1 in Python. The same holds for 0.6 against 0.5 and 0.9 against 1.0.
  - Melody.AllClose: compares in exact reals, so pairs exactly 0.1 apart are never close, unlike the float subtraction at analysis.py:270.
  - Melody.IsSimilarRhythm: inherits the exact-real threshold test, so boundary pairs such as 0.4 or 0.6 against 0.5 are similar in the source but not here.
  - Melody.IsCadentialPattern: inherits it too, so a phrase ending 0.5, 0.4, 2.0 is cadential in the source (and cut by `_detect_phrases`) but not here.
  - Melody.CadentialPhraseEndsLong: its bounds hold for the exact-real model only. In the source, a penultimate duration of 0.4 can match the 0.5 pattern.
- **Style names.** `Styles.Style` has exactly the eight configured styles, so the `KeyError` that `self.style_configs[style]` (voicing.py:51) raises for any other name cannot be expressed.
- **MIDI range.** music21 does not reject a `.midi` value outside 0..127; it folds the value back into that range by octaves. Model pitches are unbounded integers and are never folded. For example, `add_extensions` on a chord whose first pitch is 110 asks for `pitch.Pitch(midi=131)`, and the model keeps 131. The `.midi` comparisons of the root loops (voicing.py:113-116) and of the melody loop (:130) therefore see folded values in the source once a pitch is out of range. So a top voice above 127 can send the source into the melody loop where the model returns the voicing.
- **Partial in-place updates.** An error result drops whatever the source had already written into the chord before raising.
  - VoiceLeading.MinimizeVoiceMovement: when `prev_chord.pitches[i]` raises at voicing.py:174, voices 0..i-1 have already been rewritten at :191; the model returns only the error.
  - VoiceLeading.FixParallelMotion: when `prev_chord.pitches[i]` raises at :162, voice i has already been set to `original_pitch - 2` at :161; the model returns only the error.
- **Zero numerator.** Harmony.GenerateHarmony requires a positive time-signature numerator, as music21 time signatures have. The fallback at analysis.py:66 returns the `TimeSignature` class itself, whose use at :95 would raise; that path is not modelled.
- **Out of scope:**
  - The stubs: `apply_voice_leading` (:149-151), modelled only by the `None` it returns; the first `generate_voicing` (:72-74), which the later definition overrides; `is_parallel_motion` (never defined).
  - File and MIDI I/O: `create_midi`, `harmonize_melody`, `analyze_melody`, `_get_key`, `_get_time_signature`.
- **Other analysis passes.** These are floating-point scoring or simple statistics outside the harmonisation path:
  - `_analyze_tension`, `_analyze_style_features`, `_is_syncopated`;
  - `_analyze_rhythm`, `_analyze_contour`, `_detect_peak_notes`, which are not defined in this file.
- **Unread config fields.** The `voicing_*` fields of `VoicingConfig` (voicing.py:9-16) are not read by the modelled code and are not in the datatype.
- **Other repository files.** The duplicate `melody-harmonizer/melody_harmonizer/core/analysis.py`, `harmonizer.py`, `melody-harmonizer/melody_harmonizer/core/harmonizer.py` and the UI and HTTP components are not part of this model.

=== FILE: cadences.dfy ===
/** `_detect_cadences`: labelling each melodic step into the tonic or the
    dominant. The key enters as the pitch classes of its tonic, its dominant
    and its relative minor's tonic; a pitch's name is its pitch class. */
module Cadences {
  import opened Pitch
  import opened Melody
  import opened Results

  /** 'PAC', 'HC' and 'DC'. */
  datatype CadenceKind = PerfectAuthentic | Half | Deceptive

  /** What the detector asks of a music21 key, as pitch classes. */
  datatype KeyDegrees = KeyDegrees(tonic: int, dominant: int, relativeMinor: int)

  /** A cadence attached to the event at index `at`. */
  datatype Cadence = Cadence(at: nat, kind: CadenceKind)

  /** The name of an event's pitch, as a pitch class; a rest has no pitch. */
  function PitchName(e: Event): (r: Result<int>)
    ensures r.Ok? <==> e.Note?
    ensures r.Err? ==> r.error == RestHasNoPitch
    ensures r.Ok? ==> r.value == PitchClass(e.pitch)
  {
    match e
    case Note(p, _) => Ok(PitchClass(p))
    case Rest(_) => Err(RestHasNoPitch)
  }

  /** One pass of the loop body of `_detect_cadences`: the names are looked up in
      the order the code reads them, so a rest fails exactly when its pitch
      is reached. */
  function Classify(current: Event, next: Event, key: KeyDegrees): (r: Result<Option<CadenceKind>>)
    ensures r.Err? ==> r.error == RestHasNoPitch
    ensures r.Err? <==>
              next.Rest? || (current.Rest? && (PitchClass(next.pitch) == key.tonic || PitchClass(next.pitch) != key.dominant))
    ensures r == Ok(Some(PerfectAuthentic)) <==>
              current.Note? && next.Note? && PitchClass(next.pitch) == key.tonic && PitchClass(current.pitch) == key.dominant
    ensures r == Ok(Some(Half)) <==>
              next.Note? && PitchClass(next.pitch) == key.dominant && PitchClass(next.pitch) != key.tonic
    ensures r == Ok(Some(Deceptive)) <==>
              && current.Note? && next.Note?
              && PitchClass(next.pitch) != key.tonic && PitchClass(next.pitch) != key.dominant
              && PitchClass(current.pitch) == key.dominant && PitchClass(next.pitch) == key.relativeMinor
  {
    var nextName :- PitchName(next);
    if nextName == key.tonic then
      var currentName :- PitchName(current);
      Ok(if currentName == key.dominant then Some(PerfectAuthentic) else None)
    else if nextName == key.dominant then
      Ok(Some(Half))
    else
      var currentName :- PitchName(current);
      Ok(if currentName == key.dominant && nextName == key.relativeMinor then Some(Deceptive) else None)
  }

  /** Arriving on the tonic from anything but the dominant is no cadence at all. */
  lemma TonicWithoutDominantIsNoCadence(current: Event, next: Event, key: KeyDegrees)
    requires current.Note? && next.Note?
    requires PitchClass(next.pitch) == key.tonic && PitchClass(current.pitch) != key.dominant
    ensures Classify(current, next, key) == Ok(None)
  {
  }

  /** Step j (from event j-1 to event j) classifies without error. */
  predicate StepClassifies(notes: seq<Event>, key: KeyDegrees, j: nat)
    requires 0 < j < |notes|
  {
    Classify(notes[j - 1], notes[j], key).Ok?
  }

  /** Positions strictly increase along the list. */
  predicate Increasing(cs: seq<Cadence>)
  {
    forall a, b :: 0 <= a < b < |cs| ==> cs[a].at < cs[b].at
  }

  /** The loop of `_detect_cadences` from step i on (the step from event i to
      event i+1), returning the cadences found or the first error. */
  function DetectFrom(notes: seq<Event>, key: KeyDegrees, i: nat): (r: Result<seq<Cadence>>)
    decreases |notes| - i
    ensures r.Err? ==> r.error == RestHasNoPitch
    ensures r.Ok? <==> forall j :: i < j < |notes| ==> StepClassifies(notes, key, j)
    ensures r.Ok? ==> Increasing(r.value) && (i < |notes| ==> |r.value| <= |notes| - 1 - i)
    ensures r.Ok? ==> forall c :: c in r.value ==>
              i < c.at < |notes| && Classify(notes[c.at - 1], notes[c.at], key) == Ok(Some(c.kind))
    ensures r.Ok? ==> forall j, kind :: i < j < |notes| && Classify(notes[j - 1], notes[j], key) == Ok(Some(kind)) ==>
              Cadence(j, kind) in r.value
  {
    if i + 1 >= |notes| then Ok([])
    else
      assert StepClassifies(notes, key, i + 1) == Classify(notes[i], notes[i + 1], key).Ok?;
      var kind :- Classify(notes[i], notes[i + 1], key);
      var rest :- DetectFrom(notes, key, i + 1);
      Ok(if kind.Some? then [Cadence(i + 1, kind.value)] + rest else rest)
  }

  /** `_detect_cadences(notes, key)`: the cadence kinds, each at the event it
      arrives on, in order and at most one per step; a rest anywhere after the
      first event makes it fail. */
  function DetectCadences(notes: seq<Event>, key: KeyDegrees): (r: Result<seq<Cadence>>)
    ensures r.Err? ==> r.error == RestHasNoPitch
    ensures r.Ok? <==> forall j :: 0 < j < |notes| ==> StepClassifies(notes, key, j)
    ensures r.Ok? ==> Increasing(r.value) && (|notes| > 0 ==> |r.value| <= |notes| - 1)
    ensures r.Ok? ==> forall c :: c in r.value ==>
              0 < c.at < |notes| && Classify(notes[c.at - 1], notes[c.at], key) == Ok(Some(c.kind))
    ensures r.Ok? ==> forall j, kind :: 0 < j < |notes| && Classify(notes[j - 1], notes[j], key) == Ok(Some(kind)) ==>
              Cadence(j, kind) in r.value
    ensures (exists j :: 0 < j < |notes| && notes[j].Rest?) ==> r.Err?
    ensures (forall j :: 0 <= j < |notes| ==> notes[j].Note?) ==> r.Ok?
  {
    assert forall j :: 0 < j < |notes| && notes[j].Rest? ==> !StepClassifies(notes, key, j);
    DetectFrom(notes, key, 0)
  }

  /** A cadence on a tonic arrival is perfect authentic and comes from the
      dominant; one on a dominant arrival is a half cadence. */
  lemma CadenceKindsFollowArrival(notes: seq<Event>, key: KeyDegrees, c: Cadence)
    requires DetectCadences(notes, key).Ok? && c in DetectCadences(notes, key).value
    ensures PitchClass(notes[c.at].pitch) == key.tonic <==> c.kind == PerfectAuthentic
    ensures c.kind == PerfectAuthentic ==> PitchClass(notes[c.at - 1].pitch) == key.dominant
    ensures PitchClass(notes[c.at].pitch) == key.dominant && key.dominant != key.tonic ==> c.kind == Half
  {
  }
}

=== FILE: chords.dfy ===
/** The chord vocabulary both cores share: the three chord types, how a chord
    is classified into one of them, and the interval structure of each. */
module Chords {

  datatype ChordType = Major | Minor | Dominant

  /** What music21's `isMajorTriad`, `isMinorTriad` and `isDominantSeventh`
      report about a chord; the model takes their answers as given. */
  datatype TriadFacts = TriadFacts(isMajorTriad: bool, isMinorTriad: bool, isDominantSeventh: bool)

  /** `determine_chord_type`: the first test that holds decides, and a chord
      none of them recognises is treated as major. */
  function DetermineChordType(f: TriadFacts): (t: ChordType)
    ensures t == Minor <==> !f.isMajorTriad && f.isMinorTriad
    ensures t == Dominant <==> !f.isMajorTriad && !f.isMinorTriad && f.isDominantSeventh
    ensures t == Major <==> f.isMajorTriad || (!f.isMinorTriad && !f.isDominantSeventh)
  {
    if f.isMajorTriad then Major
    else if f.isMinorTriad then Minor
    else if f.isDominantSeventh then Dominant
    else Major
  }

  /** `chord_structures`: semitone offsets of each chord tone above the root. */
  function ChordStructure(t: ChordType): seq<int>
  {
    match t
    case Major => [0, 4, 7]
    case Minor => [0, 3, 7]
    case Dominant => [0, 4, 7, 10]
  }

  /** The chord of type t on a root given as a MIDI number: at least three
      tones, the root first, rising strictly and staying within the octave
      above the root. */
  function BuildChord(root: int, t: ChordType): (c: seq<int>)
    ensures |c| == |ChordStructure(t)|
    ensures forall k :: 0 <= k < |c| ==> c[k] == root + ChordStructure(t)[k]
    ensures |c| >= 3 && c[0] == root
    ensures forall i, j :: 0 <= i < j < |c| ==> c[i] < c[j] < root + 12
  {
    StructuresAreRootedAndWithinAnOctave(t);
    seq(|ChordStructure(t)|, k requires 0 <= k < |ChordStructure(t)| => root + ChordStructure(t)[k])
  }

  /** Every structure starts on the root, rises strictly and stays inside one
      octave, so its tones have distinct pitch classes. */
  lemma StructuresAreRootedAndWithinAnOctave(t: ChordType)
    ensures |ChordStructure(t)| >= 3 && ChordStructure(t)[0] == 0
    ensures forall i, j :: 0 <= i < j < |ChordStructure(t)| ==> ChordStructure(t)[i] < ChordStructure(t)[j] < 12
  {
  }
}

=== FILE: extensions.dfy ===
/** `add_extensions`: the style's extension codes turned into pitches above the
    chord's first pitch and appended when that exact MIDI number is absent. */
module Extensions {
  import opened Chords
  import opened Styles
  import opened Results

  /** Semitones above the first pitch for an extension code; codes other than
      7, 9 and 13 (the tables also hold 10 and 11) fall through every branch. */
  function ExtensionOffset(ext: int, t: ChordType): (o: Option<int>)
    ensures o.Some? <==> ext == 7 || ext == 9 || ext == 13
    ensures o.Some? && t == Dominant ==> o.value in {10, 14, 21}
    ensures o.Some? && t != Dominant ==> o.value in {11, 13, 21}
  {
    if ext == 7 then Some(if t == Dominant then 10 else 11)
    else if ext == 9 then Some(if t == Dominant then 14 else 13)
    else if ext == 13 then Some(21)
    else None
  }

  /** The offsets the codes in exts ask for. */
  function RequestedOffsets(exts: seq<int>, t: ChordType): set<int>
  {
    set e | e in exts && ExtensionOffset(e, t).Some? :: ExtensionOffset(e, t).value
  }

  /** The pitches the loop appends, in order. Membership is tested against
      `base`, the pitch list read once before the loop. */
  function Added(base: seq<int>, root: int, exts: seq<int>, t: ChordType): (r: seq<int>)
    ensures |r| <= |exts|
    ensures forall x :: x in r ==> x !in base && x - root in RequestedOffsets(exts, t)
    ensures forall o :: o in RequestedOffsets(exts, t) ==> root + o in base + r
  {
    if |exts| == 0 then []
    else
      var rest := Added(base, root, exts[1..], t);
      assert exts == [exts[0]] + exts[1..];
      assert RequestedOffsets(exts, t) ==
        RequestedOffsets(exts[1..], t) + (if ExtensionOffset(exts[0], t).Some? then {ExtensionOffset(exts[0], t).value} else {});
      match ExtensionOffset(exts[0], t)
      case None => rest
      case Some(o) => if root + o in base then rest else [root + o] + rest
  }

  /** `add_extensions(ch, chord_type, style)` on the chord's MIDI numbers. */
  function AddExtensions(base: seq<int>, t: ChordType, s: Style): (r: Result<seq<int>>)
    ensures r.Ok? <==> Extensions(s, t).Some? && |base| > 0
    ensures r.Err? ==> r.error == (if Extensions(s, t).None? then MissingStyleTable else EmptyChord)
    ensures r.Ok? ==> |base| <= |r.value| && r.value[..|base|] == base
    ensures r.Ok? ==> forall x :: x in r.value[|base|..] ==>
                        x !in base && x - base[0] in RequestedOffsets(Extensions(s, t).value, t)
    ensures r.Ok? ==> forall o :: o in RequestedOffsets(Extensions(s, t).value, t) ==> base[0] + o in r.value
  {
    match Extensions(s, t)
    case None => Err(MissingStyleTable)
    case Some(exts) =>
      if |base| == 0 then Err(EmptyChord)
      else
        var added := Added(base, base[0], exts, t);
        assert (base + added)[|base|..] == added;
        Ok(base + added)
  }

  /** Codes 10 and 11 are never turned into pitches, so jazz major and minor
      chords and every classical chord come back unchanged. */
  lemma IgnoredCodesLeaveChordUnchanged(base: seq<int>, t: ChordType, s: Style)
    requires |base| > 0
    requires s == Classical || (s == Jazz && t != Dominant)
    ensures AddExtensions(base, t, s) == Ok(base)
  {
    var exts := Extensions(s, t).value;
    assert forall e :: e in exts ==> e == 10 || e == 11;
    assert RequestedOffsets(exts, t) == {};
    var r := AddExtensions(base, t, s).value;
    assert r[..|base|] == base;
    assert r == r[..|base|] + r[|base|..];
    assert r == base;
  }

  /** Pop asks a dominant seventh chord for the seventh it already has. */
  lemma PopKeepsDominantSeventh(root: int)
    ensures AddExtensions(BuildChord(root, Dominant), Dominant, Pop) == Ok(BuildChord(root, Dominant))
  {
    var c := BuildChord(root, Dominant);
    assert c[0] == root && c[3] == root + 10;
    assert root + 10 in c;
    assert [7][1..] == [];
    assert Added(c, c[0], [7], Dominant) == [];
    assert Extensions(Pop, Dominant) == Some([7]);
    assert c + [] == c;
  }

  /** Blues adds only the ninth, an octave and a whole tone above the root,
      to a dominant seventh chord. */
  lemma BluesAddsNinthToDominantSeventh(root: int)
    ensures AddExtensions(BuildChord(root, Dominant), Dominant, Blues) == Ok(BuildChord(root, Dominant) + [root + 14])
  {
    var c := BuildChord(root, Dominant);
    assert c[3] == root + 10;
    assert root + 14 !in c;
    assert [7, 9][1..] == [9] && [9][1..] == [];
    assert Added(c, c[0], [9], Dominant) == [root + 14];
    assert Added(c, c[0], [7, 9], Dominant) == [root + 14];
  }
}

=== FILE: harmony.dfy ===
/** `generate_harmony` and its chord choice: one chord per melody note from a
    four-chord progression cycled once per measure, with a seventh added when
    the melody grazes the chord. Roman numerals are realised by a parameter
    `realize` (the key is fixed inside it); a chord is its pitches' MIDI
    numbers in music21's order. */
module Harmony {
  import opened Pitch
  import opened Melody

  datatype Mode = MajorMode | MinorMode

  /** The progression table of the analyser, by mode. */
  function StyleProgressions(mode: Mode): (table: seq<seq<string>>)
    ensures |table| == 3
    ensures forall k :: 0 <= k < |table| ==> |table[k]| == 4
  {
    match mode
    case MajorMode => [["I", "IV", "V", "I"], ["I", "vi", "IV", "V"], ["I", "V", "vi", "IV"]]
    case MinorMode => [["i", "iv", "V", "i"], ["i", "VI", "III", "V"], ["i", "iv", "v", "i"]]
  }

  /** `generate_harmony` uses the first progression of the mode's row. */
  function Progression(mode: Mode): (p: seq<string>)
    ensures |p| == 4
    ensures p[0] == p[3] && p[2] == "V"
  {
    StyleProgressions(mode)[0]
  }

  /** The numeral a note at position i is harmonised with: the progression
      entry of its measure (i divided by the numerator, rounded down), the
      progression being cycled. The cycle opens and closes on the tonic chord
      and has V third. */
  function NumeralAt(mode: Mode, numerator: nat, i: nat): (r: string)
    requires numerator > 0
    ensures r in Progression(mode)
    ensures (i / numerator) % 4 == 0 || (i / numerator) % 4 == 3 ==> r == Progression(mode)[0]
    ensures (i / numerator) % 4 == 2 ==> r == "V"
  {
    var p := Progression(mode);
    p[(i / numerator) % |p|]
  }

  lemma MulAtLeast(a: int, n: int)
    requires a >= 1 && n > 0
    ensures a * n >= n
  {
  }

  lemma BoundedMultipleIsZero(d: int, n: int)
    requires n > 0 && -n < d * n < n
    ensures d == 0
  {
    if d >= 1 {
      MulAtLeast(d, n);
    } else if d <= -1 {
      MulAtLeast(-d, n);
    }
  }

  lemma DivUnique(x: int, n: int, q: int, r: int)
    requires n > 0 && 0 <= r < n && x == q * n + r
    ensures x / n == q
  {
    var q', r' := x / n, x % n;
    assert (q - q') * n == r' - r;
    BoundedMultipleIsZero(q - q', n);
  }

  /** Going m measures on moves the measure count by m. */
  lemma ShiftMeasures(x: int, n: int, m: int)
    requires n > 0
    ensures (x + m * n) / n == x / n + m
  {
    var q, r := x / n, x % n;
    assert x + m * n == (q + m) * n + r;
    DivUnique(x + m * n, n, q + m, r);
  }

  /** The progression repeats every four measures. */
  lemma NumeralsCycleEveryFourMeasures(mode: Mode, numerator: nat, i: nat)
    requires numerator > 0
    ensures NumeralAt(mode, numerator, i + 4 * numerator) == NumeralAt(mode, numerator, i)
  {
    var m := i / numerator;
    ShiftMeasures(i, numerator, 4);
    assert (i + 4 * numerator) / numerator == m + 4;
    assert (m + 4) % 4 == m % 4;
  }

  /** Every note of the first measure is harmonised with the tonic. */
  lemma FirstMeasureIsTonic(mode: Mode, numerator: nat, i: nat)
    requires numerator > 0 && i < numerator
    ensures NumeralAt(mode, numerator, i) == Progression(mode)[0]
  {
  }

  /** The loop of `_modify_chord_for_melody` from chord tone j on: the first tone within a
      whole tone of the melody returns a seventh chord, but only for a triad;
      otherwise the loop runs on, and the chord comes back as it was. */
  function ModifyFrom(tones: seq<int>, melody: int, j: nat): (r: seq<int>)
    requires j <= |tones|
    decreases |tones| - j
    ensures r == tones || (|tones| == 3 && r == tones + [tones[0] + 10])
    ensures r != tones <==> |tones| == 3 && exists k :: j <= k < |tones| && Abs(tones[k] - melody) <= 2
  {
    if j == |tones| then tones
    else if Abs(tones[j] - melody) <= 2 && |tones| == 3 then tones + [tones[0] + 10]
    else ModifyFrom(tones, melody, j + 1)
  }

  /** `_modify_chord_for_melody(chord, melody_note)`: a triad with a tone at
      most two semitones from the melody gains the minor seventh above its
      first pitch; every other chord comes back unchanged. */
  function ModifyChordForMelody(tones: seq<int>, melody: int): (r: seq<int>)
    ensures r != tones <==> |tones| == 3 && exists k :: 0 <= k < |tones| && Abs(tones[k] - melody) <= 2
    ensures r != tones ==> |r| == 4 && r[..3] == tones && r[3] - r[0] == 10
  {
    ModifyFrom(tones, melody, 0)
  }

  /** `_find_suitable_chord(melody_note, key, chord_roman)` on the realised
      numeral: unchanged when the melody pitch is a chord pitch, else modified. */
  function FindSuitableChord(melody: int, tones: seq<int>): (r: seq<int>)
    ensures melody in tones ==> r == tones
    ensures r != tones <==> melody !in tones && |tones| == 3 && exists k :: 0 <= k < |tones| && Abs(tones[k] - melody) <= 2
  {
    if melody in tones then tones else ModifyChordForMelody(tones, melody)
  }

  /** One element of the harmony stream. */
  datatype HarmonyItem = ChordItem(tones: seq<int>) | RestItem

  /** `generate_harmony(melody_stream)` after the analysis: one element per
      event, a rest for a rest, and for a note the suitable chord of the
      numeral its measure selects. `numerator` is the time signature's. */
  method GenerateHarmony(events: seq<Event>, mode: Mode, numerator: nat, realize: string -> seq<int>)
    returns (harmony: seq<HarmonyItem>)
    requires numerator > 0
    ensures |harmony| == |events|
    ensures forall i :: 0 <= i < |events| ==> (harmony[i].RestItem? <==> events[i].Rest?)
    ensures forall i :: 0 <= i < |events| && events[i].Note? ==>
              harmony[i] == ChordItem(FindSuitableChord(events[i].pitch, realize(NumeralAt(mode, numerator, i))))
  {
    var progression := Progression(mode);
    var currentMeasure := 0;
    harmony := [];
    for i := 0 to |events|
      invariant |harmony| == i
      invariant currentMeasure == i / numerator
      invariant forall k :: 0 <= k < i ==> (harmony[k].RestItem? <==> events[k].Rest?)
      invariant forall k :: 0 <= k < i && events[k].Note? ==>
                  harmony[k] == ChordItem(FindSuitableChord(events[k].pitch, realize(NumeralAt(mode, numerator, k))))
    {
      var item;
      if events[i].Note? {
        assert progression[currentMeasure % |progression|] == NumeralAt(mode, numerator, i);
        item := ChordItem(FindSuitableChord(events[i].pitch, realize(progression[currentMeasure % |progression|])));
      } else {
        item := RestItem;
      }
      harmony := harmony + [item];
      currentMeasure := |harmony| / numerator;
    }
  }
}

=== FILE: melody.dfy ===
/** Melody events and the note-level tests the phrase detector uses. */
module Melody {

  /** A melody event: a pitched note (MIDI number) or a rest, each with a
      duration in quarter lengths. */
  datatype Event = Note(pitch: int, dur: real) | Rest(dur: real)

  function AbsReal(x: real): real
  {
    if x < 0.0 then -x else x
  }

  /** `_is_breathing_point(current, next_note)`: either event a rest, a note
      more than twice as long as the next, or a fall of more than a fifth
      (seven semitones); those and only those are breathing points. */
  function IsBreathingPoint(current: Event, next: Event): (b: bool)
    ensures current.Rest? || next.Rest? ==> b
    ensures current.Note? && next.Note? && current.dur > next.dur * 2.0 ==> b
    ensures current.Note? && next.Note? && current.pitch - next.pitch > 7 ==> b
    ensures b && current.Note? && next.Note? && current.dur <= next.dur * 2.0 ==> current.pitch - next.pitch > 7
  {
    if current.Rest? || next.Rest? then true
    else if current.dur > next.dur * 2.0 then true
    else current.pitch - next.pitch > 7
  }

  /** The default similarity threshold of `_is_similar_rhythm`. */
  const RhythmThreshold: real := 0.1

  /** Every pair of corresponding durations differs by less than the threshold. */
  function AllClose(rhythm1: seq<real>, rhythm2: seq<real>, threshold: real): (r: bool)
    requires |rhythm1| == |rhythm2|
    ensures r <==> forall k :: 0 <= k < |rhythm1| ==> AbsReal(rhythm1[k] - rhythm2[k]) < threshold
  {
    if |rhythm1| == 0 then true
    else AbsReal(rhythm1[0] - rhythm2[0]) < threshold && AllClose(rhythm1[1..], rhythm2[1..], threshold)
  }

  /** `_is_similar_rhythm(rhythm1, rhythm2, threshold)`: equal lengths and every
      pair of durations closer than the threshold. */
  function IsSimilarRhythm(rhythm1: seq<real>, rhythm2: seq<real>, threshold: real): (r: bool)
    ensures |rhythm1| != |rhythm2| ==> !r
    ensures r <==> |rhythm1| == |rhythm2| && forall k :: 0 <= k < |rhythm1| ==> AbsReal(rhythm1[k] - rhythm2[k]) < threshold
  {
    if |rhythm1| != |rhythm2| then false
    else AllClose(rhythm1, rhythm2, threshold)
  }

  /** Similarity does not depend on which rhythm comes first. */
  lemma SimilarRhythmIsSymmetric(rhythm1: seq<real>, rhythm2: seq<real>, threshold: real)
    ensures IsSimilarRhythm(rhythm1, rhythm2, threshold) == IsSimilarRhythm(rhythm2, rhythm1, threshold)
  {
  }

  /** The cadential rhythms: short-short-long, shorter-shorter-long, short-long-long. */
  const CadentialPatterns: seq<seq<real>> := [[1.0, 1.0, 2.0], [0.5, 0.5, 2.0], [1.0, 2.0, 2.0]]

  function Durations(events: seq<Event>): (r: seq<real>)
    ensures |r| == |events|
    ensures forall k :: 0 <= k < |events| ==> r[k] == events[k].dur
  {
    seq(|events|, k requires 0 <= k < |events| => events[k].dur)
  }

  /** The durations are similar to at least one of the patterns. */
  function AnySimilar(durations: seq<real>, patterns: seq<seq<real>>): (r: bool)
    ensures r <==> exists k :: 0 <= k < |patterns| && IsSimilarRhythm(durations, patterns[k], RhythmThreshold)
  {
    if |patterns| == 0 then false
    else IsSimilarRhythm(durations, patterns[0], RhythmThreshold) || AnySimilar(durations, patterns[1..])
  }

  /** `_is_cadential_pattern(phrase)`: the last three durations match one of
      the cadential rhythms. */
  function IsCadentialPattern(phrase: seq<Event>): (r: bool)
    ensures |phrase| < 3 ==> !r
    ensures r <==> (|phrase| >= 3 &&
              exists k :: 0 <= k < |CadentialPatterns| &&
                IsSimilarRhythm(Durations(phrase[|phrase| - 3..]), CadentialPatterns[k], RhythmThreshold))
  {
    if |phrase| < 3 then false
    else AnySimilar(Durations(phrase[|phrase| - 3..]), CadentialPatterns)
  }

  /** Every cadential rhythm ends long: a phrase in a cadential pattern ends on
      an event of more than 1.9 quarter lengths, preceded by one between 0.4
      and 2.1. */
  lemma CadentialPhraseEndsLong(phrase: seq<Event>)
    requires IsCadentialPattern(phrase)
    ensures phrase[|phrase| - 1].dur > 1.9
    ensures 0.4 < phrase[|phrase| - 2].dur < 2.1
  {
    var d := Durations(phrase[|phrase| - 3..]);
    var k :| 0 <= k < |CadentialPatterns| && IsSimilarRhythm(d, CadentialPatterns[k], RhythmThreshold);
    assert AbsReal(d[2] - CadentialPatterns[k][2]) < RhythmThreshold;
    assert AbsReal(d[1] - CadentialPatterns[k][1]) < RhythmThreshold;
    assert d[2] == phrase[|phrase| - 1].dur && d[1] == phrase[|phrase| - 2].dur;
  }
}

=== FILE: phrases.dfy ===
/** `_detect_phrases`: cutting a melody into phrases at breathing points,
    cadential rhythms and a maximum length. The segmentation itself is stated
    for any cut test `ends(phrase so far, next event)`; `EndsPhrase` is the
    test the analyser uses. */
module Phrases {
  import opened Melody

  /** A phrase is cut once it holds more than this many events. */
  const MaxPhraseLength := 8

  /** The cut test of `_detect_phrases`, made after the current event joined the
      phrase (so the phrase is never empty) and before `next` is considered. */
  function EndsPhrase(current: seq<Event>, next: Event): (b: bool)
    ensures b ==> |current| > 0
    ensures |current| > MaxPhraseLength ==> b
    ensures |current| > 0 && (current[|current| - 1].Rest? || next.Rest?) ==> b
    ensures b && |current| <= MaxPhraseLength && !IsCadentialPattern(current) ==>
              IsBreathingPoint(current[|current| - 1], next)
  {
    && |current| > 0
    && (|| IsBreathingPoint(current[|current| - 1], next)
        || IsCadentialPattern(current)
        || |current| > MaxPhraseLength)
  }

  function Concat<T>(phrases: seq<seq<T>>): seq<T>
  {
    if |phrases| == 0 then [] else phrases[0] + Concat(phrases[1..])
  }

  lemma {:induction false} ConcatAppend<T>(phrases: seq<seq<T>>, p: seq<T>)
    ensures Concat(phrases + [p]) == Concat(phrases) + p
  {
    if |phrases| > 0 {
      assert (phrases + [p])[1..] == phrases[1..] + [p];
      ConcatAppend(phrases[1..], p);
    } else {
      assert Concat([p]) == p + Concat<T>([]);
    }
  }

  /** No cut falls inside p. */
  predicate Unbroken<T(==)>(p: seq<T>, ends: (seq<T>, T) -> bool)
  {
    forall j :: 0 < j < |p| ==> !ends(p[..j], p[j])
  }

  predicate CutBetween<T(==)>(phrases: seq<seq<T>>, k: nat, ends: (seq<T>, T) -> bool)
    requires k + 1 < |phrases|
  {
    |phrases[k + 1]| > 0 && ends(phrases[k], phrases[k + 1][0])
  }

  /** The phrases partition notes into non-empty runs; a cut falls after each
      phrase but the last and nowhere inside one. */
  predicate IsSegmentation<T(==)>(notes: seq<T>, phrases: seq<seq<T>>, ends: (seq<T>, T) -> bool)
  {
    && Concat(phrases) == notes
    && (forall k :: 0 <= k < |phrases| ==> |phrases[k]| > 0 && Unbroken(phrases[k], ends))
    && (forall k: nat {:trigger CutBetween(phrases, k, ends)} :: k + 1 < |phrases| ==> CutBetween(phrases, k, ends))
  }

  /** The loop of `_detect_phrases` from event i on, then the closing of the open phrase after it. */
  function Segment<T(==)>(notes: seq<T>, i: nat, current: seq<T>, phrases: seq<seq<T>>, ends: (seq<T>, T) -> bool): (r: seq<seq<T>>)
    requires i <= |notes|
    decreases |notes| - i
    ensures |phrases| <= |r| && r[..|phrases|] == phrases
    ensures i < |notes| || |current| > 0 ==> |phrases| < |r|
    ensures |r| <= |phrases| + 1 + (|notes| - i)
  {
    if i == |notes| then
      if |current| > 0 then phrases + [current] else phrases
    else
      var current' := current + [notes[i]];
      if i < |notes| - 1 && ends(current', notes[i + 1]) then
        Segment(notes, i + 1, [], phrases + [current'], ends)
      else
        Segment(notes, i + 1, current', phrases, ends)
  }

  function LastPhrase<T(==)>(phrases: seq<seq<T>>): seq<T>
    requires |phrases| > 0
  {
    phrases[|phrases| - 1]
  }

  /** Appending a phrase that the cut test ends keeps the cuts between phrases. */
  lemma AppendKeepsCuts<T>(phrases: seq<seq<T>>, p: seq<T>, ends: (seq<T>, T) -> bool)
    requires |p| > 0
    requires forall k: nat {:trigger CutBetween(phrases, k, ends)} :: k + 1 < |phrases| ==> CutBetween(phrases, k, ends)
    requires |phrases| > 0 ==> ends(LastPhrase(phrases), p[0])
    ensures forall k: nat {:trigger CutBetween(phrases + [p], k, ends)} :: k + 1 < |phrases + [p]| ==> CutBetween(phrases + [p], k, ends)
  {
    var phrases' := phrases + [p];
    forall k: nat | k + 1 < |phrases'|
      ensures CutBetween(phrases', k, ends)
    {
      if k + 1 < |phrases| {
        assert CutBetween(phrases, k, ends);
      }
    }
  }

  /** What holds each time the loop reaches event i: the closed phrases and
      the open one spell out the events so far, no cut falls inside any of
      them, a cut falls after each closed phrase, and the open phrase was not
      ended by the event now arriving. */
  predicate SegmentInvariant<T(==)>(notes: seq<T>, i: nat, current: seq<T>, phrases: seq<seq<T>>, ends: (seq<T>, T) -> bool)
  {
    && i <= |notes|
    && Concat(phrases) + current == notes[..i]
    && (forall k :: 0 <= k < |phrases| ==> |phrases[k]| > 0 && Unbroken(phrases[k], ends))
    && (forall k: nat {:trigger CutBetween(phrases, k, ends)} :: k + 1 < |phrases| ==> CutBetween(phrases, k, ends))
    && Unbroken(current, ends)
    && (|phrases| > 0 && |Concat(phrases)| < |notes| ==> ends(LastPhrase(phrases), notes[|Concat(phrases)|]))
    && (|current| > 0 && i < |notes| ==> !ends(current, notes[i]))
  }

  /** Appending an event the open phrase was not ended by keeps it unbroken. */
  lemma ExtendUnbroken<T>(current: seq<T>, x: T, ends: (seq<T>, T) -> bool)
    requires Unbroken(current, ends)
    requires |current| > 0 ==> !ends(current, x)
    ensures Unbroken(current + [x], ends)
  {
    var current' := current + [x];
    forall j | 0 < j < |current'|
      ensures !ends(current'[..j], current'[j])
    {
      if j < |current| {
        assert current'[..j] == current[..j];
      } else {
        assert current'[..j] == current;
      }
    }
  }

  /** After the loop of `_detect_phrases`, closing the open phrase (if any) gives a segmentation. */
  lemma CloseGivesSegmentation<T>(notes: seq<T>, current: seq<T>, phrases: seq<seq<T>>, ends: (seq<T>, T) -> bool)
    requires SegmentInvariant(notes, |notes|, current, phrases, ends)
    ensures IsSegmentation(notes, if |current| > 0 then phrases + [current] else phrases, ends)
  {
    assert notes[..|notes|] == notes;
    if |current| > 0 {
      ConcatAppend(phrases, current);
      assert current[0] == notes[|Concat(phrases)|];
      AppendKeepsCuts(phrases, current, ends);
    }
  }

  /** The cut branch of `_detect_phrases`: closing the phrase after event i keeps the invariant. */
  lemma CutKeepsInvariant<T>(notes: seq<T>, i: nat, current: seq<T>, phrases: seq<seq<T>>, ends: (seq<T>, T) -> bool)
    requires SegmentInvariant(notes, i, current, phrases, ends) && i < |notes| - 1
    requires ends(current + [notes[i]], notes[i + 1])
    ensures SegmentInvariant(notes, i + 1, [], phrases + [current + [notes[i]]], ends)
  {
    var current' := current + [notes[i]];
    var phrases' := phrases + [current'];
    ExtendUnbroken(current, notes[i], ends);
    assert notes[..i + 1] == notes[..i] + [notes[i]];
    ConcatAppend(phrases, current');
    assert current'[0] == notes[|Concat(phrases)|];
    AppendKeepsCuts(phrases, current', ends);
    assert Concat(phrases') + [] == notes[..i + 1];
  }

  /** The branch of `_detect_phrases` without a cut: the open phrase grows and the invariant holds. */
  lemma GrowKeepsInvariant<T>(notes: seq<T>, i: nat, current: seq<T>, phrases: seq<seq<T>>, ends: (seq<T>, T) -> bool)
    requires SegmentInvariant(notes, i, current, phrases, ends) && i < |notes|
    requires !(i < |notes| - 1 && ends(current + [notes[i]], notes[i + 1]))
    ensures SegmentInvariant(notes, i + 1, current + [notes[i]], phrases, ends)
  {
    ExtendUnbroken(current, notes[i], ends);
    assert notes[..i + 1] == notes[..i] + [notes[i]];
  }

  lemma {:induction false} SegmentIsSegmentation<T>(notes: seq<T>, i: nat, current: seq<T>, phrases: seq<seq<T>>, ends: (seq<T>, T) -> bool)
    requires SegmentInvariant(notes, i, current, phrases, ends)
    decreases |notes| - i
    ensures IsSegmentation(notes, Segment(notes, i, current, phrases, ends), ends)
  {
    if i == |notes| {
      CloseGivesSegmentation(notes, current, phrases, ends);
    } else if i < |notes| - 1 && ends(current + [notes[i]], notes[i + 1]) {
      CutKeepsInvariant(notes, i, current, phrases, ends);
      SegmentIsSegmentation(notes, i + 1, [], phrases + [current + [notes[i]]], ends);
    } else {
      GrowKeepsInvariant(notes, i, current, phrases, ends);
      SegmentIsSegmentation(notes, i + 1, current + [notes[i]], phrases, ends);
    }
  }

  /** A segmentation is empty exactly when there is nothing to segment. */
  lemma SegmentationEmptyIff<T>(notes: seq<T>, phrases: seq<seq<T>>, ends: (seq<T>, T) -> bool)
    requires IsSegmentation(notes, phrases, ends)
    ensures |phrases| == 0 <==> |notes| == 0
  {
    if |phrases| > 0 {
      assert Concat(phrases) == phrases[0] + Concat(phrases[1..]);
    }
  }

  /** `_detect_phrases(notes)`: the segmentation of the notes under the
      analyser's cut test; none for no notes. */
  function DetectPhrases(notes: seq<Event>): (r: seq<seq<Event>>)
    ensures IsSegmentation(notes, r, EndsPhrase)
    ensures |r| == 0 <==> |notes| == 0
  {
    assert notes[..0] == [];
    assert SegmentInvariant(notes, 0, [], [], EndsPhrase);
    SegmentIsSegmentation(notes, 0, [], [], EndsPhrase);
    var r := Segment(notes, 0, [], [], EndsPhrase);
    SegmentationEmptyIff(notes, r, EndsPhrase);
    r
  }

  /** A phrase never grows past nine events: the tenth would follow a cut. */
  lemma PhrasesHaveAtMostNineEvents(notes: seq<Event>, phrases: seq<seq<Event>>)
    requires IsSegmentation(notes, phrases, EndsPhrase)
    ensures forall k :: 0 <= k < |phrases| ==> |phrases[k]| <= MaxPhraseLength + 1
  {
    forall k | 0 <= k < |phrases|
      ensures |phrases[k]| <= MaxPhraseLength + 1
    {
      var p := phrases[k];
      assert |p| > MaxPhraseLength + 1 ==> EndsPhrase(p[..MaxPhraseLength + 1], p[MaxPhraseLength + 1]);
    }
  }

  /** Dropping the first phrase leaves a segmentation of the remaining notes. */
  lemma SegmentationTail<T>(notes: seq<T>, phrases: seq<seq<T>>, ends: (seq<T>, T) -> bool)
    requires IsSegmentation(notes, phrases, ends) && |phrases| > 0
    ensures IsSegmentation(notes[|phrases[0]|..], phrases[1..], ends)
  {
    assert notes == phrases[0] + Concat(phrases[1..]);
    assert notes[|phrases[0]|..] == Concat(phrases[1..]);
    forall k: nat | k + 1 < |phrases[1..]|
      ensures CutBetween(phrases[1..], k, ends)
    {
      assert CutBetween(phrases, k + 1, ends);
    }
  }

  /** The first phrase of a segmentation is a prefix of the notes. */
  lemma FirstPhraseIsPrefix<T>(notes: seq<T>, phrases: seq<seq<T>>, ends: (seq<T>, T) -> bool)
    requires IsSegmentation(notes, phrases, ends) && |phrases| > 0
    ensures phrases[0] <= notes
  {
    assert notes == phrases[0] + Concat(phrases[1..]);
  }

  /** When a segmentation's first phrase is shorter than a prefix p of the
      notes, the cut after that phrase falls inside p. */
  lemma CutInsideLongerPrefix<T>(notes: seq<T>, a: seq<seq<T>>, p: seq<T>, ends: (seq<T>, T) -> bool)
    requires IsSegmentation(notes, a, ends) && |a| > 0
    requires p <= notes && |a[0]| < |p|
    ensures ends(p[..|a[0]|], p[|a[0]|])
  {
    var a0 := a[0];
    assert notes == a0 + Concat(a[1..]);
    SegmentationTail(notes, a, ends);
    SegmentationEmptyIff(notes[|a0|..], a[1..], ends);
    assert CutBetween(a, 0, ends);
    assert Concat(a[1..]) == a[1] + Concat(a[2..]);
    assert notes[|a0|] == a[1][0];
    assert p[..|a0|] == a0;
  }

  /** Two segmentations cannot disagree on where the first phrase ends: a
      shorter first phrase would put a cut inside the longer one. */
  lemma FirstPhrasesAgree<T>(notes: seq<T>, a: seq<seq<T>>, b: seq<seq<T>>, ends: (seq<T>, T) -> bool)
    requires IsSegmentation(notes, a, ends) && IsSegmentation(notes, b, ends)
    requires |a| > 0 && |b| > 0
    ensures a[0] == b[0]
  {
    FirstPhraseIsPrefix(notes, a, ends);
    FirstPhraseIsPrefix(notes, b, ends);
    if |a[0]| < |b[0]| {
      CutInsideLongerPrefix(notes, a, b[0], ends);
    } else if |b[0]| < |a[0]| {
      CutInsideLongerPrefix(notes, b, a[0], ends);
    }
  }

  /** The phrases are determined by the notes: any two segmentations under the
      same cut test agree, so `DetectPhrases` returns the only one. */
  lemma {:induction false} SegmentationIsUnique<T>(notes: seq<T>, a: seq<seq<T>>, b: seq<seq<T>>, ends: (seq<T>, T) -> bool)
    requires IsSegmentation(notes, a, ends) && IsSegmentation(notes, b, ends)
    decreases |notes|
    ensures a == b
  {
    SegmentationEmptyIff(notes, a, ends);
    SegmentationEmptyIff(notes, b, ends);
    if |notes| > 0 {
      FirstPhrasesAgree(notes, a, b, ends);
      SegmentationTail(notes, a, ends);
      SegmentationTail(notes, b, ends);
      SegmentationIsUnique(notes[|a[0]|..], a[1..], b[1..], ends);
      assert a == [a[0]] + a[1..] && b == [b[0]] + b[1..];
    }
  }
}

=== FILE: pitch.dfy ===
/** Absolute pitches as MIDI numbers (60 is middle C), with the note name and
    octave that music21 reads off a pitch. */
module Pitch {

  /** The note name without its octave, 0 = C .. 11 = B. Two pitches have the
      same music21 `name` exactly when they have the same pitch class here
      (enharmonic spellings are identified). */
  function PitchClass(p: int): (pc: int)
    ensures 0 <= pc < 12
  {
    p % 12
  }

  /** The octave number, middle C being in octave 4. */
  function Octave(p: int): int
  {
    p / 12 - 1
  }

  /** The pitch after assigning `octave` to p's `.octave`: same name, new octave. */
  function WithOctave(p: int, octave: int): (q: int)
    ensures PitchClass(q) == PitchClass(p)
    ensures Octave(q) == octave
    ensures q - p == 12 * (octave - Octave(p))
  {
    PitchClass(p) + 12 * (octave + 1)
  }

  function Abs(x: int): nat
  {
    if x < 0 then -x else x
  }

  /** Two pitches with the same name are a whole number of octaves apart, so a
      half-open window of twelve semitones holds at most one pitch of each name. */
  lemma SameNameInOctaveWindow(a: int, b: int, low: int)
    requires PitchClass(a) == PitchClass(b)
    requires low < a <= low + 12 && low < b <= low + 12
    ensures a == b
  {
    assert a - b == 12 * (a / 12 - b / 12);
  }
}

=== FILE: placement.dfy ===
/** Register placement, `generate_voicing` (the definition that overrides the
    earlier stub) and its helper `find_best_octave`. */
module Placement {
  import opened Pitch
  import opened Sorting
  import opened Styles
  import opened Results

  /** The first root loop: raise by octaves while below `low`. */
  function RaiseToLow(p: int, low: int): (r: int)
    decreases low - p
    ensures PitchClass(r) == PitchClass(p)
    ensures low <= r
    ensures low <= p ==> r == p
    ensures p < low ==> r < low + 12
  {
    if p < low then RaiseToLow(p + 12, low) else p
  }

  /** The second root loop: lower by octaves while above `high`. */
  function LowerToHigh(p: int, high: int): (r: int)
    decreases p - high
    ensures PitchClass(r) == PitchClass(p)
    ensures r <= high
    ensures p <= high ==> r == p
    ensures high < p ==> high - 12 < r
  {
    if p > high then LowerToHigh(p - 12, high) else p
  }

  /** Where the root lands: it keeps its name, never ends above the range, and
      ends inside it whenever the range spans at least eleven semitones. A root
      already in range (boundaries included) stays where it is; one raised
      lands in the lowest octave above `low`, one lowered in the highest octave
      below `high`. */
  function PlaceRoot(root: int, range: Range): (r: int)
    ensures PitchClass(r) == PitchClass(root)
    ensures r <= range.high
    ensures range.high - range.low >= 11 ==> range.low <= r
    ensures range.low <= root <= range.high ==> r == root
    ensures root < range.low ==> r < range.low + 12
    ensures range.high < root ==> range.high - 12 < r
  {
    LowerToHigh(RaiseToLow(root, range.low), range.high)
  }

  /** The two variables of `find_best_octave`: the octave it will return and
      the interval it tracks. */
  datatype OctaveSearch = OctaveSearch(octave: int, interval: int)

  /** Each octave step moves the tracked interval by exactly one octave. */
  predicate InStep(start: OctaveSearch, s: OctaveSearch)
  {
    s.interval - start.interval == 12 * (s.octave - start.octave)
  }

  function RaiseInterval(s: OctaveSearch, minSpacing: int): (r: OctaveSearch)
    decreases minSpacing - s.interval
    ensures InStep(s, r)
    ensures minSpacing <= r.interval
    ensures minSpacing <= s.interval ==> r == s
    ensures s.interval < minSpacing ==> r.interval < minSpacing + 12
  {
    if s.interval < minSpacing then RaiseInterval(OctaveSearch(s.octave + 1, s.interval + 12), minSpacing)
    else s
  }

  function LowerInterval(s: OctaveSearch, maxSpacing: int): (r: OctaveSearch)
    decreases s.interval - maxSpacing
    ensures InStep(s, r)
    ensures r.interval <= maxSpacing
    ensures s.interval <= maxSpacing ==> r == s
    ensures maxSpacing < s.interval ==> maxSpacing - 12 < r.interval
  {
    if s.interval > maxSpacing then LowerInterval(OctaveSearch(s.octave - 1, s.interval - 12), maxSpacing)
    else s
  }

  /** `find_best_octave(note, prev, config)`. The interval starts as the signed
      distance from prev to note, each with its own octave, while the octave
      starts from prev's octave. The result's `octave` is what the source
      returns. */
  function FindBestOctave(note: int, prev: int, cfg: VoicingConfig): (r: OctaveSearch)
    ensures InStep(OctaveSearch(Octave(prev), note - prev), r)
    ensures r.interval <= cfg.maxSpacing
    ensures cfg.minSpacing <= note - prev <= cfg.maxSpacing ==> r == OctaveSearch(Octave(prev), note - prev)
    ensures cfg.maxSpacing - cfg.minSpacing >= 11 ==> cfg.minSpacing <= r.interval
  {
    LowerInterval(RaiseInterval(OctaveSearch(Octave(prev), note - prev), cfg.minSpacing), cfg.maxSpacing)
  }

  /** In `generate_voicing`, the note is given the octave `find_best_octave` chose. It
      keeps its name; its distance above prev equals the tracked interval less
      the octaves by which the note started above prev. */
  function PlaceNote(note: int, prev: int, cfg: VoicingConfig): (q: int)
    ensures PitchClass(q) == PitchClass(note)
    ensures q - prev == FindBestOctave(note, prev, cfg).interval - 12 * (Octave(note) - Octave(prev))
  {
    WithOctave(note, FindBestOctave(note, prev, cfg).octave)
  }

  /** When note and prev start in the same octave the tracked interval is the
      real one, so the placed note sits at most maxSpacing above prev, and at
      least minSpacing above it when the window spans an octave. */
  lemma SameOctavePlacementKeepsSpacing(note: int, prev: int, cfg: VoicingConfig)
    requires Octave(note) == Octave(prev)
    ensures PlaceNote(note, prev, cfg) - prev <= cfg.maxSpacing
    ensures cfg.maxSpacing - cfg.minSpacing >= 11 ==> cfg.minSpacing <= PlaceNote(note, prev, cfg) - prev
    ensures cfg.minSpacing <= note - prev <= cfg.maxSpacing ==> PlaceNote(note, prev, cfg) == note
  {
  }

  /** With a note an octave above prev the tracked interval is off by an
      octave: E5 placed after C4 in the pop style lands on E3, below C4. */
  lemma PlacementCanLandBelowPrevious()
    ensures PlaceNote(76, 60, Config(Pop)) == 52
  {
    var cfg := Config(Pop);
    var start := OctaveSearch(4, 16);
    assert RaiseInterval(start, cfg.minSpacing) == start;
    assert LowerInterval(OctaveSearch(3, 4), cfg.maxSpacing) == OctaveSearch(3, 4);
    assert LowerInterval(start, cfg.maxSpacing) == OctaveSearch(3, 4);
  }

  /** The placement loop of `generate_voicing`: each remaining tone is placed against the voice placed
      just before it, by `place(tone, previous voice)`. */
  function PlaceTones(placed: seq<int>, tones: seq<int>, place: (int, int) -> int): (r: seq<int>)
    requires |placed| > 0
    decreases |tones|
    ensures |r| == |placed| + |tones|
    ensures r[..|placed|] == placed
    ensures forall k {:trigger tones[k]} :: 0 <= k < |tones| ==> r[|placed| + k] == place(tones[k], r[|placed| + k - 1])
  {
    if |tones| == 0 then placed
    else
      var placed' := placed + [place(tones[0], placed[|placed| - 1])];
      var r := PlaceTones(placed', tones[1..], place);
      assert r[..|placed|] == placed'[..|placed|] == placed;
      assert r[|placed|] == placed'[|placed|];
      assert forall k {:trigger tones[k]} :: 1 <= k < |tones| ==> tones[k] == tones[1..][k - 1];
      r
  }

  /** The pitches of ch whose name differs from the root's, in chord order. */
  function OtherTones(ch: seq<int>, root: int): (r: seq<int>)
    ensures forall x :: multiset(r)[x] == if PitchClass(x) != PitchClass(root) then multiset(ch)[x] else 0
  {
    if |ch| == 0 then []
    else
      assert ch == [ch[0]] + ch[1..];
      (if PitchClass(ch[0]) != PitchClass(root) then [ch[0]] else []) + OtherTones(ch[1..], root)
  }

  /** In `generate_voicing`, the tones to place after the root, ascending by MIDI number. */
  function RemainingTones(ch: seq<int>, root: int): (r: seq<int>)
    ensures Ascending(r)
    ensures forall x :: multiset(r)[x] == if PitchClass(x) != PitchClass(root) then multiset(ch)[x] else 0
    ensures forall k :: 0 <= k < |r| ==> PitchClass(r[k]) != PitchClass(root)
  {
    var r := Sort(OtherTones(ch, root));
    assert forall k :: 0 <= k < |r| ==> r[k] in multiset(r);
    r
  }

  /** The voicing before the melody step: the placed root, then one voice per
      remaining tone in ascending order of its original MIDI number. */
  function Arrange(ch: seq<int>, root: int, cfg: VoicingConfig): (v: seq<int>)
    ensures |v| == 1 + |RemainingTones(ch, root)|
    ensures v[0] == PlaceRoot(root, cfg.preferredRange)
    ensures forall k {:trigger RemainingTones(ch, root)[k]} :: 0 <= k < |v| - 1 ==>
              && PitchClass(v[k + 1]) == PitchClass(RemainingTones(ch, root)[k])
              && PitchClass(v[k + 1]) != PitchClass(root)
              && v[k + 1] == PlaceNote(RemainingTones(ch, root)[k], v[k], cfg)
  {
    var tones := RemainingTones(ch, root);
    PlaceTones([PlaceRoot(root, cfg.preferredRange)], tones, (note, prev) => PlaceNote(note, prev, cfg))
  }

  /** `generate_voicing(ch, config, melody_note)` with `ch.root()` given as
      root. The melody loop leaves a top voice at or above the melody alone;
      otherwise it never exits. */
  function GenerateVoicing(ch: seq<int>, root: int, cfg: VoicingConfig, melody: Option<int>): (r: Result<seq<int>>)
    ensures r.Ok? <==> melody.None? || melody.value <= Last(Arrange(ch, root, cfg))
    ensures r.Err? ==> r.error == MelodyLoopDiverges
    ensures r.Ok? ==> r.value == Arrange(ch, root, cfg)
    ensures r.Ok? && melody.Some? ==> melody.value <= Last(r.value)
  {
    var v := Arrange(ch, root, cfg);
    if melody.Some? && Last(v) < melody.value then Err(MelodyLoopDiverges)
    else Ok(v)
  }

  function Last(v: seq<int>): int
    requires |v| > 0
  {
    v[|v| - 1]
  }

  /** One pass of the melody loop body: the top voice drops an octave. */
  function LowerTop(v: seq<int>): seq<int>
    requires |v| > 0
  {
    v[..|v| - 1] + [Last(v) - 12]
  }

  function LowerTopTimes(v: seq<int>, n: nat): seq<int>
    requires |v| > 0
  {
    if n == 0 then v
    else
      var w := LowerTopTimes(v, n - 1);
      if |w| == 0 then w else LowerTop(w)
  }

  /** The melody loop diverges: once the top voice is below the melody, every
      pass keeps it below, only lower, and leaves the other voices alone. */
  lemma {:induction false} MelodyLoopNeverExits(v: seq<int>, melody: int, n: nat)
    requires |v| > 0 && Last(v) < melody
    ensures |LowerTopTimes(v, n)| == |v|
    ensures LowerTopTimes(v, n)[..|v| - 1] == v[..|v| - 1]
    ensures Last(LowerTopTimes(v, n)) == Last(v) - 12 * n < melody
  {
    if n > 0 {
      MelodyLoopNeverExits(v, melody, n - 1);
      var w := LowerTopTimes(v, n - 1);
      assert LowerTopTimes(v, n) == LowerTop(w);
      assert LowerTop(w)[..|v| - 1] == w[..|v| - 1];
    }
  }
}

=== FILE: results.dfy ===
/** Outcomes shared by the voicing engine and the melody analysis.
    The source signals failure by raising Python exceptions (or by never
    returning); each way it can fail on a modelled path is one `Error`. */
module Results {

  datatype Error =
    | MissingStyleTable    // KeyError: the style has no row in the extension table
    | EmptyChord           // IndexError: a chord without pitches has no first pitch
    | IndexOutOfRange      // IndexError: a voice or melody note past the end of its list
    | MelodyLoopDiverges   // the melody loop of generate_voicing never exits
    | RestHasNoPitch       // AttributeError: a rest was asked for its pitch

  datatype Option<T> = None | Some(value: T)

  datatype Result<T> = Ok(value: T) | Err(error: Error) {

    predicate IsFailure() {
      Err?
    }

    function PropagateFailure<U>(): Result<U>
      requires Err?
    {
      Err(error)
    }

    function Extract(): T
      requires Ok?
    {
      value
    }
  }
}

=== FILE: sequencer.dfy ===
/** `apply_voicing`: the per-chord pipeline of classification, extension and
    register placement, driven over the chord list. */
module Sequencer {
  import opened Chords
  import opened Styles
  import opened Extensions
  import opened Placement
  import opened Results

  /** In `apply_voicing`, the melody note for chord i, none when no melody was given. */
  function MelodyNoteAt(melody: seq<int>, i: nat): (r: Result<Option<int>>)
    ensures r.Err? <==> 0 < |melody| <= i
    ensures r.Ok? ==> (r.value.Some? <==> |melody| > 0) && (r.value.Some? ==> r.value.value == melody[i])
  {
    if |melody| == 0 then Ok(None)
    else if i < |melody| then Ok(Some(melody[i]))
    else Err(IndexOutOfRange)
  }

  /** The body of the `apply_voicing` loop for chord i: classify, extend, place. music21's chord
      classification and root finding are the parameters `facts` and `rootOf`. */
  function VoiceChord(ch: seq<int>, i: nat, s: Style, melody: seq<int>,
                      facts: seq<int> -> TriadFacts, rootOf: seq<int> -> int): (r: Result<seq<int>>)
    ensures 0 < |melody| <= i ==> r == Err(IndexOutOfRange)
    ensures |ch| == 0 && (|melody| == 0 || i < |melody|) ==> r.Err?
    ensures r.Ok? ==> |ch| > 0 && Styles.Extensions(s, DetermineChordType(facts(ch))).Some?
    ensures r.Ok? ==> |r.value| > 0 && (|melody| > 0 ==> melody[i] <= r.value[|r.value| - 1])
  {
    var note :- MelodyNoteAt(melody, i);
    var extended :- AddExtensions(ch, DetermineChordType(facts(ch)), s);
    GenerateVoicing(extended, rootOf(extended), Config(s), note)
  }

  /** The loop variables: `prev_chord`, which the loop tests but never assigns,
      `previous_chord`, which it assigns but never reads, and the output list.
      An entry `None` is what the stub `apply_voice_leading` returns. */
  datatype LoopState = LoopState(prevChord: Option<seq<int>>, previousChord: Option<seq<int>>, voiced: seq<Option<seq<int>>>)

  /** Chord j is the first chord from i on whose step fails. */
  predicate FirstFailure(chords: seq<seq<int>>, i: nat, j: nat, step: (seq<int>, nat) -> Result<seq<int>>)
  {
    && i <= j < |chords|
    && step(chords[j], j).Err?
    && forall m :: i <= m < j ==> step(chords[m], m).Ok?
  }

  /** The loop of `apply_voicing` from chord i on, with its per-chord pipeline as `step`.
      When `prev_chord` is set, the voice-leading branch replaces each voicing by the stub's
      `None`, which is appended like any other result. */
  function VoiceFrom(chords: seq<seq<int>>, i: nat, st: LoopState, step: (seq<int>, nat) -> Result<seq<int>>): (r: Result<seq<Option<seq<int>>>>)
    requires i <= |chords|
    requires |st.voiced| == i
    decreases |chords| - i
    ensures r.Ok? <==> forall j :: i <= j < |chords| ==> step(chords[j], j).Ok?
    ensures r.Ok? ==> |r.value| == |chords| && r.value[..i] == st.voiced
    ensures r.Ok? && st.prevChord.Some? ==> forall j :: i <= j < |chords| ==> r.value[j] == None
    ensures r.Ok? && st.prevChord.None? ==>
              forall j :: i <= j < |chords| ==> r.value[j].Some? && step(chords[j], j) == Ok(r.value[j].value)
    ensures r.Err? ==> exists j: nat :: FirstFailure(chords, i, j, step) && step(chords[j], j) == Err(r.error)
  {
    if i == |chords| then Ok(st.voiced)
    else
      var voiced :- step(chords[i], i);
      var led := if st.prevChord.Some? then None else Some(voiced);
      var r := VoiceFrom(chords, i + 1, LoopState(st.prevChord, led, st.voiced + [led]), step);
      if r.Ok? then
        assert r.value[..i] == (r.value[..i + 1])[..i];
        r
      else
        var j: nat :| FirstFailure(chords, i + 1, j, step) && step(chords[j], j) == Err(r.error);
        assert FirstFailure(chords, i, j, step);
        r
  }

  /** `apply_voicing(chords, style, melody)`. Since `prev_chord` stays `None`,
      the voice-leading branch is never taken: there is one voicing per chord,
      each computed from that chord and its melody note alone, and the first
      chord that fails decides the error. */
  function ApplyVoicing(chords: seq<seq<int>>, s: Style, melody: seq<int>,
                        facts: seq<int> -> TriadFacts, rootOf: seq<int> -> int): (r: Result<seq<Option<seq<int>>>>)
    ensures r.Ok? <==> forall i :: 0 <= i < |chords| ==> VoiceChord(chords[i], i, s, melody, facts, rootOf).Ok?
    ensures r.Ok? ==> |r.value| == |chords|
    ensures r.Ok? ==> forall i :: 0 <= i < |chords| ==>
              r.value[i].Some? && VoiceChord(chords[i], i, s, melody, facts, rootOf) == Ok(r.value[i].value)
    ensures r.Err? ==>
              exists j :: 0 <= j < |chords| && VoiceChord(chords[j], j, s, melody, facts, rootOf) == Err(r.error) &&
                forall m :: 0 <= m < j ==> VoiceChord(chords[m], m, s, melody, facts, rootOf).Ok?
  {
    var step := (ch: seq<int>, i: nat) => VoiceChord(ch, i, s, melody, facts, rootOf);
    var r := VoiceFrom(chords, 0, LoopState(None, None, []), step);
    if r.Err? then
      var j: nat :| FirstFailure(chords, 0, j, step) && step(chords[j], j) == Err(r.error);
      assert forall m :: 0 <= m < j ==> step(chords[m], m).Ok?;
      r
    else r
  }
}

=== FILE: sorting.dfy ===
/** Ascending order on MIDI numbers: the order in which the remaining chord
    tones are placed. */
module Sorting {

  predicate Ascending(s: seq<int>)
  {
    forall i, j :: 0 <= i < j < |s| ==> s[i] <= s[j]
  }

  /** Inserts x before the first element it does not exceed. */
  function Insert(x: int, s: seq<int>): (r: seq<int>)
    ensures |r| == |s| + 1
    ensures r[0] == x || (|s| > 0 && r[0] == s[0])
    ensures multiset(r) == multiset(s) + multiset{x}
  {
    if |s| == 0 then [x]
    else if x <= s[0] then [x] + s
    else
      assert s == [s[0]] + s[1..];
      [s[0]] + Insert(x, s[1..])
  }

  /** Inserting into an ascending sequence keeps it ascending. */
  lemma {:induction false} InsertAscending(x: int, s: seq<int>)
    requires Ascending(s)
    ensures Ascending(Insert(x, s))
  {
    if |s| > 0 && s[0] < x {
      InsertAscending(x, s[1..]);
      var rest := Insert(x, s[1..]);
      assert s[0] <= rest[0];
    }
  }

  /** Insertion sort: an ascending permutation of its input. */
  function Sort(s: seq<int>): (r: seq<int>)
    ensures Ascending(r)
    ensures multiset(r) == multiset(s)
  {
    if |s| == 0 then []
    else
      assert s == [s[0]] + s[1..];
      InsertAscending(s[0], Sort(s[1..]));
      Insert(s[0], Sort(s[1..]))
  }

  /** Two ascending arrangements of the same non-empty multiset start alike. */
  lemma SameLeast(a: seq<int>, b: seq<int>)
    requires Ascending(a) && Ascending(b)
    requires multiset(a) == multiset(b) && |a| > 0
    ensures |b| > 0 && a[0] == b[0]
  {
    assert a[0] in multiset(b);
    var j :| 0 <= j < |b| && b[j] == a[0];
    assert b[0] in multiset(a);
    var k :| 0 <= k < |a| && a[k] == b[0];
  }

  lemma TailMultiset(s: seq<int>)
    requires |s| > 0
    ensures multiset(s[1..]) == multiset(s) - multiset{s[0]}
  {
    assert s == [s[0]] + s[1..];
  }

  /** There is only one ascending arrangement of a multiset of pitches, so any
      correct sort (Python's stable `sorted` included) yields `Sort`'s result. */
  lemma {:induction false} AscendingPermutationUnique(a: seq<int>, b: seq<int>)
    requires Ascending(a) && Ascending(b)
    requires multiset(a) == multiset(b)
    ensures a == b
  {
    if |a| == 0 {
      assert |multiset(b)| == 0;
    } else {
      SameLeast(a, b);
      TailMultiset(a);
      TailMultiset(b);
      AscendingPermutationUnique(a[1..], b[1..]);
      assert a == [a[0]] + a[1..];
      assert b == [b[0]] + b[1..];
    }
  }
}

=== FILE: styles.dfy ===
/** The per-style tables of the voicing generator: the voicing configuration
    of each style and the extensions each style asks for per chord type. */
module Styles {
  import opened Chords
  import opened Results

  /** The eight styles with a voicing configuration. */
  datatype Style = Pop | Jazz | Rock | Classical | Blues | Country | Latin | Hiphop

  datatype Range = Range(low: int, high: int)

  /** `VoicingConfig`, restricted to the fields the voicing code reads or the
      style table sets. Spacings are in semitones between adjacent voices. */
  datatype VoicingConfig = VoicingConfig(
    maxSpacing: int,
    minSpacing: int,
    preferredRange: Range,
    preferredBassRange: Range,
    voiceCrossing: bool,
    parallelThreshold: real)

  /** The dataclass defaults. */
  const DefaultConfig := VoicingConfig(12, 2, Range(48, 72), Range(36, 48), false, 0.8)

  /** `style_configs`: each entry is the default with some fields overridden. */
  function Config(s: Style): (c: VoicingConfig)
    ensures c.preferredRange == Range(48, 72) && c.preferredBassRange == Range(36, 48)
    ensures c.parallelThreshold == DefaultConfig.parallelThreshold
    ensures 0 < c.minSpacing < c.maxSpacing
    ensures !c.voiceCrossing <==> s == Pop || s == Classical
  {
    match s
    case Pop => DefaultConfig.(maxSpacing := 12, minSpacing := 3, voiceCrossing := false)
    case Jazz => DefaultConfig.(maxSpacing := 10, minSpacing := 2, voiceCrossing := true)
    case Rock => DefaultConfig.(maxSpacing := 12, minSpacing := 3, voiceCrossing := true)
    case Classical => DefaultConfig.(maxSpacing := 16, minSpacing := 2, voiceCrossing := false)
    case Blues => DefaultConfig.(maxSpacing := 12, minSpacing := 3, voiceCrossing := true)
    case Country => DefaultConfig.(maxSpacing := 12, minSpacing := 3, voiceCrossing := true)
    case Latin => DefaultConfig.(maxSpacing := 12, minSpacing := 3, voiceCrossing := true)
    case Hiphop => DefaultConfig.(maxSpacing := 12, minSpacing := 3, voiceCrossing := true)
  }

  /** Only classical leaves a spacing window of at least an octave between its
      minimum and maximum spacing; the octave search of the register placement
      is guaranteed to land inside the window only then. */
  lemma OnlyClassicalSpansAnOctave(s: Style)
    ensures Config(s).maxSpacing - Config(s).minSpacing >= 11 <==> s == Classical
  {
  }

  /** `style_extensions`: the extension codes of a style and chord type, or
      `None` where the style has no row (the lookup raises KeyError). */
  function Extensions(s: Style, t: ChordType): (r: Option<seq<int>>)
    ensures r.None? <==> s in {Rock, Country, Latin, Hiphop}
  {
    match s
    case Pop => Some(match t case Major => [] case Minor => [] case Dominant => [7])
    case Jazz => Some(match t case Major => [11] case Minor => [10] case Dominant => [7, 11])
    case Classical => Some(match t case Major => [] case Minor => [] case Dominant => [])
    case Blues => Some(match t case Major => [7] case Minor => [7] case Dominant => [7, 9])
    case _ => None
  }
}

=== FILE: voice_leading.dfy ===
/** Voice leading between consecutive chords: `minimize_voice_movement` and
    `fix_parallel_motion`. Chords are their voices' MIDI numbers, voice 0 first. */
module VoiceLeading {
  import opened Pitch
  import opened Styles
  import opened Results

  /** The octave loop of `minimize_voice_movement`: move by octaves toward target until
      within a tritone of it. */
  function NearestOctave(p: int, target: int): (r: int)
    decreases Abs(p - target)
    ensures PitchClass(r) == PitchClass(p)
    ensures Abs(r - target) <= 6
    ensures Abs(p - target) <= 6 ==> r == p
    ensures p - target > 6 ==> -6 < r - target
    ensures p - target < -6 ==> r - target < 6
  {
    if Abs(p - target) > 6 then
      NearestOctave(if p < target then p + 12 else p - 12, target)
    else p
  }

  /** The octave loop lands on the only pitch of the voice's name in its
      window: a voice coming down stops in (target - 6, target + 6], one coming
      up in [target - 6, target + 6). */
  lemma NearestOctaveIsOnlyNameInWindow(p: int, target: int, q: int)
    requires PitchClass(q) == PitchClass(p)
    ensures p - target > 6 && -6 < q - target <= 6 ==> NearestOctave(p, target) == q
    ensures p - target < -6 && -6 <= q - target < 6 ==> NearestOctave(p, target) == q
  {
    var r := NearestOctave(p, target);
    if p - target > 6 && -6 < q - target <= 6 {
      SameNameInOctaveWindow(r, q, target - 6);
    } else if p - target < -6 && -6 <= q - target < 6 {
      SameNameInOctaveWindow(r, q, target - 7);
    }
  }

  /** The spacing test of `minimize_voice_movement` for voice i moved to p: it fails when p
      sits less than minSpacing above voice i-1 (as already rewritten) or less
      than minSpacing below voice i+1 (not yet rewritten). */
  function Rejected(cur: seq<int>, i: nat, p: int, cfg: VoicingConfig): (b: bool)
    requires i < |cur|
    ensures |cur| == 1 ==> !b
    ensures !b && i > 0 ==> cur[i - 1] + cfg.minSpacing <= p
    ensures !b && i < |cur| - 1 ==> p <= cur[i + 1] - cfg.minSpacing
  {
    || (i > 0 && p - cur[i - 1] < cfg.minSpacing)
    || (i < |cur| - 1 && cur[i + 1] - p < cfg.minSpacing)
  }

  /** The chord the loop returns and how many voices it rewrote before the
      `break` (or the end). */
  datatype Led = Led(voices: seq<int>, written: nat)

  /** Voice j of v is the rewrite of cur[j] toward prev[j], and it passed the
      spacing test against its left neighbour in v and its right one in cur. */
  predicate Rewritten(prev: seq<int>, cur: seq<int>, v: seq<int>, j: nat, cfg: VoicingConfig)
    requires j < |v| == |cur| && j < |prev|
  {
    && v[j] == NearestOctave(cur[j], prev[j])
    && (j > 0 ==> cfg.minSpacing <= v[j] - v[j - 1])
    && (j < |cur| - 1 ==> cfg.minSpacing <= cur[j + 1] - v[j])
  }

  /** v is cur with voices i .. k-1 rewritten one after another, each passing
      the spacing test, and every other voice as it was. */
  predicate RunPasses(prev: seq<int>, cur: seq<int>, v: seq<int>, i: nat, k: nat, cfg: VoicingConfig)
  {
    && i <= k <= |cur| && k <= |prev| && |v| == |cur|
    && (forall j {:trigger v[j]} :: 0 <= j < i ==> v[j] == cur[j])
    && (forall j :: i <= j < k ==> Rewritten(prev, cur, v, j, cfg))
    && (forall j {:trigger v[j]} :: k <= j < |cur| ==> v[j] == cur[j])
  }

  /** v is what the loop leaves when it started on cur at voice i and stopped
      after rewriting voices i .. k-1: the run passed, and voice k (if any) was
      rejected by the spacing test. */
  predicate LedFrom(prev: seq<int>, cur: seq<int>, v: seq<int>, i: nat, k: nat, cfg: VoicingConfig)
  {
    && RunPasses(prev, cur, v, i, k, cfg)
    && (k < |cur| ==> k < |prev| && Rejected(v, k, NearestOctave(cur[k], prev[k]), cfg))
  }

  /** Two passing runs from the same start agree where both rewrote, so the
      voice after the shorter run passes the spacing test in it. */
  lemma PassingVoiceNotRejected(prev: seq<int>, cur: seq<int>, v: seq<int>, w: seq<int>, i: nat, n: nat, k: nat, cfg: VoicingConfig)
    requires RunPasses(prev, cur, v, i, n, cfg)
    requires RunPasses(prev, cur, w, i, k, cfg)
    ensures k < n ==> !Rejected(w, k, NearestOctave(cur[k], prev[k]), cfg)
  {
    if k < n {
      assert Rewritten(prev, cur, v, k, cfg);
      if k > i {
        assert Rewritten(prev, cur, v, k - 1, cfg);
        assert Rewritten(prev, cur, w, k - 1, cfg);
      } else if k > 0 {
        assert v[k - 1] == cur[k - 1] == w[k - 1];
      }
      if k + 1 < |cur| {
        assert w[k + 1] == cur[k + 1];
      }
    }
  }

  /** The loop is deterministic: once it stops at voice k, no run of passing
      rewrites from the same start gets past k. */
  lemma RunStopsAtRejection(prev: seq<int>, cur: seq<int>, v: seq<int>, w: seq<int>, i: nat, n: nat, k: nat, cfg: VoicingConfig)
    requires RunPasses(prev, cur, v, i, n, cfg)
    requires LedFrom(prev, cur, w, i, k, cfg)
    ensures n <= k
  {
    PassingVoiceNotRejected(prev, cur, v, w, i, n, k, cfg);
  }

  /** The loop of `minimize_voice_movement` from voice i on; `cur` holds the voices as
      rewritten so far. */
  function MinimizeFrom(prev: seq<int>, cur: seq<int>, i: nat, cfg: VoicingConfig): (r: Result<Led>)
    requires i <= |cur| && i <= |prev|
    decreases |cur| - i
    ensures r.Err? ==> r.error == IndexOutOfRange && |prev| < |cur|
    ensures |cur| <= |prev| ==> r.Ok?
    ensures r.Ok? ==> LedFrom(prev, cur, r.value.voices, i, r.value.written, cfg)
    ensures r.Err? <==> |prev| < |cur| && exists v :: RunPasses(prev, cur, v, i, |prev|, cfg)
  {
    if i == |cur| then Ok(Led(cur, i))
    else if i == |prev| then
      assert RunPasses(prev, cur, cur, i, |prev|, cfg);
      Err(IndexOutOfRange)
    else
      var p := NearestOctave(cur[i], prev[i]);
      if Rejected(cur, i, p, cfg) then
        StoppedHasNoFullRun(prev, cur, cur, i, i, cfg);
        Ok(Led(cur, i))
      else
        var r := MinimizeFrom(prev, cur[i := p], i + 1, cfg);
        if r.Ok? then
          var v := r.value.voices;
          var cur' := cur[i := p];
          assert v[i] == p;
          assert Rewritten(prev, cur, v, i, cfg);
          forall j | i < j < r.value.written
            ensures Rewritten(prev, cur, v, j, cfg)
          {
            assert Rewritten(prev, cur', v, j, cfg);
          }
          StoppedHasNoFullRun(prev, cur, v, i, r.value.written, cfg);
          r
        else
          var v :| RunPasses(prev, cur[i := p], v, i + 1, |prev|, cfg);
          ExtendRun(prev, cur, v, i, |prev|, cfg);
          r
  }

  /** A loop that stopped leaves no passing run through every voice of a
      shorter previous chord. */
  lemma StoppedHasNoFullRun(prev: seq<int>, cur: seq<int>, w: seq<int>, i: nat, k: nat, cfg: VoicingConfig)
    requires LedFrom(prev, cur, w, i, k, cfg)
    ensures |prev| < |cur| ==> forall u :: !RunPasses(prev, cur, u, i, |prev|, cfg)
  {
    forall u | RunPasses(prev, cur, u, i, |prev|, cfg)
      ensures |prev| >= |cur|
    {
      RunStopsAtRejection(prev, cur, u, w, i, |prev|, k, cfg);
    }
  }

  /** A passing run from voice i + 1 over cur with voice i rewritten, where
      voice i passed, is a passing run from voice i over cur. */
  lemma ExtendRun(prev: seq<int>, cur: seq<int>, v: seq<int>, i: nat, n: nat, cfg: VoicingConfig)
    requires i < |cur| && i < n && i < |prev|
    requires !Rejected(cur, i, NearestOctave(cur[i], prev[i]), cfg)
    requires RunPasses(prev, cur[i := NearestOctave(cur[i], prev[i])], v, i + 1, n, cfg)
    ensures RunPasses(prev, cur, v, i, n, cfg)
  {
    var cur' := cur[i := NearestOctave(cur[i], prev[i])];
    assert Rewritten(prev, cur, v, i, cfg);
    forall j | i < j < n
      ensures Rewritten(prev, cur, v, j, cfg)
    {
      assert Rewritten(prev, cur', v, j, cfg);
    }
  }

  /** `minimize_voice_movement(prev_chord, curr_chord, config)`. Every voice it
      rewrites keeps its name and lands within a tritone of the previous
      chord's voice at the same index; at the first voice the spacing test
      rejects, it stops (`break`) and leaves that voice and all later ones as
      they were. Running past the previous chord's last voice is an IndexError. */
  function MinimizeVoiceMovement(prev: seq<int>, cur: seq<int>, cfg: VoicingConfig): (r: Result<seq<int>>)
    ensures r.Err? ==> r.error == IndexOutOfRange && |prev| < |cur|
    ensures |cur| <= |prev| ==> r.Ok?
    ensures r.Err? <==> |prev| < |cur| && exists v :: RunPasses(prev, cur, v, 0, |prev|, cfg)
    ensures r.Ok? ==> exists k :: LedFrom(prev, cur, r.value, 0, k, cfg)
    ensures r.Ok? ==> |r.value| == |cur|
    ensures r.Ok? ==> forall j :: 0 <= j < |cur| && r.value[j] != cur[j] ==>
              j < |prev| && PitchClass(r.value[j]) == PitchClass(cur[j]) && Abs(r.value[j] - prev[j]) <= 6
  {
    var led :- MinimizeFrom(prev, cur, 0, cfg);
    assert LedFrom(prev, cur, led.voices, 0, led.written, cfg);
    forall j | 0 <= j < |cur| && led.voices[j] != cur[j]
      ensures j < |prev| && PitchClass(led.voices[j]) == PitchClass(cur[j]) && Abs(led.voices[j] - prev[j]) <= 6
    {
      assert j < led.written;
      assert Rewritten(prev, cur, led.voices, j, cfg);
    }
    Ok(led.voices)
  }

  /** Leading a chord to itself moves nothing. */
  lemma LeadingToItselfMovesNothing(v: seq<int>, cfg: VoicingConfig)
    ensures MinimizeVoiceMovement(v, v, cfg) == Ok(v)
  {
    var r := MinimizeVoiceMovement(v, v, cfg).value;
    assert r == v;
  }

  /** The order in which `fix_parallel_motion` tries perturbations. */
  const Steps: seq<int> := [-2, -1, 1, 2]

  /** The inner loop of `fix_parallel_motion`: the voice is set to original + step and
      the parallel-motion test is asked about prev and the ORIGINAL pitch, so
      the first step succeeds exactly when any would. */
  function TrySteps(prevPitch: int, original: int, steps: seq<int>, parallel: (int, int) -> bool): (r: Option<int>)
    ensures r.Some? <==> |steps| > 0 && !parallel(prevPitch, original)
    ensures r.Some? ==> r.value == original + steps[0]
  {
    if |steps| == 0 then None
    else if !parallel(prevPitch, original) then Some(original + steps[0])
    else TrySteps(prevPitch, original, steps[1..], parallel)
  }

  /** Voice i is the first voice from 1 on whose motion the test does not call
      parallel. */
  predicate FirstNonParallel(prev: seq<int>, cur: seq<int>, i: nat, parallel: (int, int) -> bool)
  {
    && 1 <= i < |cur| && i < |prev|
    && !parallel(prev[i], cur[i])
    && forall j :: 1 <= j < i ==> parallel(prev[j], cur[j])
  }

  /** The voice at which the outer loop of `fix_parallel_motion`, started at
      voice i, would index past a previous chord of n voices. */
  function FirstMissing(i: nat, n: nat): nat
  {
    if i < n then n else i
  }

  /** The outer loop of `fix_parallel_motion` from voice i on; voices 1 .. i-1
      were all found parallel and restored. */
  function FixFrom(prev: seq<int>, cur: seq<int>, i: nat, parallel: (int, int) -> bool): (r: Result<seq<int>>)
    requires 1 <= i
    requires i == 1 || (i <= |cur| && i <= |prev|)
    requires forall j :: 1 <= j < i ==> parallel(prev[j], cur[j])
    decreases |cur| - i
    ensures r.Err? ==> r.error == IndexOutOfRange && |prev| < |cur|
    ensures |cur| <= |prev| ==> r.Ok?
    ensures r.Ok? && r.value != cur ==>
              exists k: nat :: i <= k && FirstNonParallel(prev, cur, k, parallel) && r.value == cur[k := cur[k] - 2]
    ensures r.Ok? && r.value == cur ==>
              (|cur| <= 1 || |cur| <= |prev|) && forall j :: 1 <= j < |cur| ==> parallel(prev[j], cur[j])
    ensures r.Err? <==>
              && FirstMissing(i, |prev|) < |cur|
              && forall j :: i <= j < FirstMissing(i, |prev|) ==> parallel(prev[j], cur[j])
  {
    if i >= |cur| then Ok(cur)
    else if i >= |prev| then Err(IndexOutOfRange)
    else
      match TrySteps(prev[i], cur[i], Steps, parallel)
      case Some(p) =>
        assert FirstNonParallel(prev, cur, i, parallel);
        Ok(cur[i := p])
      case None => FixFrom(prev, cur, i + 1, parallel)
  }

  /** `fix_parallel_motion(prev_chord, curr_chord)` with the undefined
      `is_parallel_motion` as the parameter `parallel`. Voice 0 never moves;
      the chord comes back unchanged when every later voice is judged
      parallel, and otherwise with exactly the first voice judged not parallel
      lowered by two semitones. */
  function FixParallelMotion(prev: seq<int>, cur: seq<int>, parallel: (int, int) -> bool): (r: Result<seq<int>>)
    ensures r.Err? ==> r.error == IndexOutOfRange && |prev| < |cur|
    ensures |cur| <= |prev| ==> r.Ok?
    ensures r.Ok? ==> |r.value| == |cur| && (|cur| > 0 ==> r.value[0] == cur[0])
    ensures r.Ok? ==> (r.value == cur <==>
              (|cur| <= 1 || |cur| <= |prev|) && forall j :: 1 <= j < |cur| ==> parallel(prev[j], cur[j]))
    ensures r.Ok? && r.value != cur ==>
              exists i: nat :: FirstNonParallel(prev, cur, i, parallel) && r.value == cur[i := cur[i] - 2]
    ensures r.Err? <==>
              && FirstMissing(1, |prev|) < |cur|
              && forall j :: 1 <= j < FirstMissing(1, |prev|) ==> parallel(prev[j], cur[j])
  {
    FixFrom(prev, cur, 1, parallel)
  }
}
